=== FILE: README.md ===
# js-ioc in Dafny

A model of the IoC service container of js-ioc and the parameter-name
reflection helper that comes with it.

- **Container.** A registry of *bindings*. Each binding is stored under an
  *abstract* identifier and holds a *concrete*: a callback to call or a class
  to instantiate.
- **Aliases** point one name at another abstract.
- **`make`** resolves a name. It takes one alias step, consults the
  shared-instance Map, looks up the binding, and *builds* it.
- **Binding record.** Stores the abstract, the concrete, the `shared` flag
  and the callback discriminator. Its `concrete` setter rejects primitives other than null.
- **`argumentNames`.**
  - It finds the parameter text of a function's source with the pattern
    `function[^(]*\(([^)]*)\)`, falling back to
    `constructor[^(]*\(([^)]*)\)`.
  - It splits that text on `,`.
  - For each segment it cuts at the first `=`, trims, removes the first
    inline comment `/\*.*\*\/` and trims again.
  - It drops the empty results.

Files:

- `js.dfy` (module `Js`): the JavaScript value semantics the code observes.
  - A `Value` datatype.
  - `typeof`, truthiness (`Js.Truthy`, which decides `if (binding.shared)`
    and `if (binding.isCallback)` in `make` and `build`) and default
    parameters.
  - The exceptions.
  - `Effect`, the state after a call together with what the call returned
    or threw.
- `binding.dfy` (module `Bindings`): `src/Entries/Binding.js`.
- `container.dfy` (module `Container`): `src/Container.js`. The container
  state is the three module-level Maps, plus a fourth map. That map holds the
  own properties `make` assigns on the instances Map object. Such a property
  is not a Map entry. Under `size` the assignment throws. Under `has`, `get`,
  `clear` or `__proto__` it replaces a method the container calls later.
- `container_properties.dfy` (module `ContainerProperties`): properties
  relating several calls, and an invariant of every state reachable by public
  calls.
- `strings.dfy` (module `Strings`): the JavaScript string operations the
  helper uses: `split` on one character, `trim`, and the comment replacement.
  `Strings.IsWhiteSpace` is the ECMAScript white space and line terminator
  set that both `trim` calls remove (src/Utilities/Reflection.js:43, 46).
  `Strings.IsLineTerminator` is the set that `.` in the comment pattern does
  not match.
- `reflection.dfy` (module `Reflection`): `argumentNames` and `_getRawArgs`
  of `src/Utilities/Reflection.js`. The function's source text is a
  parameter, standing for `func.prototype.constructor.toString()`.
- `reflection_examples.dfy` (module `ReflectionExamples`): the parameter
  lists of `tests/unit/utilities/ReflectionTest.js`, worked through the
  model.

In brief, the code:

- has no dependency lists: `bindInstance` takes no dependencies, and `build`
  instantiates a class with `new concrete` and no arguments;
- gives `forget` an empty body;
- lets `getAbstract` take exactly one alias step;
- never writes the shared-instance Map in `make`, against what the comments
  there describe: it assigns a property of the Map object instead.

## Model

| member | source | states |
|---|---|---|
| Js.TypeOf | src/Entries/Binding.js:53 | `typeof` always yields one of the eight type strings. It is `'function'` exactly for functions and `'object'` exactly for null and objects. |
| Js.Default | src/Container.js:78 | A default parameter replaces an omitted or `undefined` argument and leaves every other argument as passed. |
| Bindings.ConcreteAccepted | src/Entries/Binding.js:53-55 | The setter's guard holds exactly for functions, objects and null. |
| Bindings.SetAbstract | src/Entries/Binding.js:32-34 | The `abstract` setter accepts any string, and reading it back gives that value. No other field changes. |
| Bindings.SetShared | src/Entries/Binding.js:76-78 | The `shared` setter accepts any value, and reading it back gives that value. No other field changes. |
| Bindings.SetConcrete | src/Entries/Binding.js:52-60 | The concrete setter succeeds exactly for functions, objects and null, and then stores the value. Otherwise it throws BindingException with the source's message and leaves the binding unchanged. |
| Bindings.NullDisjunctIsDead | src/Entries/Binding.js:55 | `type === null` never holds, because `typeof` yields a string. The guard therefore accepts exactly functions and objects, null included. |
| Bindings.SetConcreteRejectsPrimitives | src/Entries/Binding.js:52-57 | Assigning `concrete` fails exactly for strings, numbers, big integers, booleans, symbols and `undefined`. |
| Bindings.SettersReadBack | src/Entries/Binding.js:32-87 | Each getter returns what its setter stored, and a setter changes no other field. `abstract` accepts any string and `shared` any value. |
| Bindings.Construct | src/Entries/Binding.js:21-25 | The constructor throws exactly when the concrete, after the null default, is a primitive. Otherwise the four fields hold the arguments, with null and false as the defaults. |
| Bindings.ConstructIsSetterSequence | src/Entries/Binding.js:21-25 | Construction is the `abstract`, `concrete` and `shared` setters run in order on any starting object. It throws exactly when the concrete setter does. |
| Bindings.ConstructWithDefaultsSucceeds | src/Entries/Binding.js:21 | `new Binding(abstract)` never throws. It yields a null concrete and a false shared flag. |
| Bindings.ConstructAsWritten | src/Entries/Binding.js:21-25 | The three-parameter constructor as declared leaves `isCallback` undefined. |
| Bindings.AsWrittenDropsIsCallback | src/Entries/Binding.js:21-25 | The declared constructor throws on the same inputs as the four-field record and agrees with it on the first three fields. Its discriminator is never truthy. |
| Container.Bound | src/Container.js:104-106 | A name with a binding, or one that `getAbstract` maps to a different name, is bound. For an unbound name, `getAbstract` returns the name itself and `getBinding` throws. |
| Container.BindWith | src/Container.js:261-265 | `_bind` fails exactly on a primitive concrete and then leaves the state unchanged. Otherwise it stores the binding, defaults applied, under its own abstract, replacing any earlier one, and changes nothing else. The name is then bound. |
| Container.BindWithAsWritten | src/Container.js:261-265 | With the constructor as declared, a stored binding never carries a truthy discriminator. |
| Container.Bind | src/Container.js:78-80 | `bind` succeeds unless the callback is a primitive. It stores a binding whose discriminator is true, with null and false as defaults, and changes nothing else. |
| Container.BindInstance | src/Container.js:93-95 | `bindInstance` behaves like `bind`, except that the stored discriminator is false. |
| Container.Singleton | src/Container.js:125-127 | `singleton` fails exactly on a primitive callback and then changes nothing. Otherwise it stores a shared callback binding, null as the default concrete, and changes nothing else. |
| Container.SingletonInstance | src/Container.js:130-132 | `singletonInstance` fails exactly on a primitive class and then changes nothing. Otherwise it stores a shared class binding and changes nothing else. |
| Container.Alias | src/Container.js:116-122 | `alias` throws, with the source's message and no change, exactly when the abstract is unbound. Otherwise it points the alias at the abstract and changes no other alias or Map. Afterwards the alias itself is bound. |
| Container.GetAbstract | src/Container.js:211-219 | `getAbstract` returns the alias target when the name is an alias key, and the name itself otherwise. |
| Container.GetBinding | src/Container.js:233-240 | `getBinding` succeeds exactly when a binding is stored under this very name and returns that binding. Otherwise it throws BindingException naming the abstract. |
| Container.Build | src/Container.js:184-200 | `build` succeeds exactly when the concrete is a function (a `Func` token stands for a function that can be both called and instantiated). A truthy discriminator calls it with the parameters; otherwise it is instantiated, ignoring them. A non-function raises the engine's TypeError. |
| Container.Make | src/Container.js:144-174 | `make` returns a shared instance when the Map has one and throws for an unbound abstract. Otherwise it returns what `build` returns, except that a shared binding under `size` throws TypeError at the write and changes nothing. It never changes the three Maps. A shared result is recorded as a property under the abstract, and only then. |
| Container.MakeCaching | src/Container.js:151-171 | With the write the comments describe, `make` returns what `build` returns for an uncached binding, also under `size`, and otherwise what `make` returns. A shared result is then stored in the instances Map under the resolved abstract. |
| Container.Forget | src/Container.js:243 | `forget` returns normally and leaves the state exactly as it was. |
| Container.Flush | src/Container.js:246-250 | `flush` empties the three Maps. It leaves the properties assigned on the instances Map object. |
| ContainerProperties.BindSetsDiscriminator | src/Container.js:78-95 | After a successful `bind` the name is bound and its binding is marked as a callback. After `bindInstance` it is marked as a class. |
| ContainerProperties.SingletonIsSharedBind | src/Container.js:125-132 | `singleton` and `singletonInstance` are `bind` and `bindInstance` with `shared = true`. They fail on the same inputs and store the same binding, except for the flag. |
| ContainerProperties.RebindReplaces | src/Container.js:264 | Registering a name again replaces its binding wholesale: only the last registration is visible. |
| ContainerProperties.FailedBindChangesNothing | src/Container.js:261-265 | A registration with a primitive concrete throws and leaves the container exactly as it was. |
| ContainerProperties.GetBindingIgnoresAliases | src/Container.js:225-240 | `getBinding` gives the same answer whatever the aliases hold. |
| ContainerProperties.GetAbstractOneStep | src/Container.js:211-219 | `getAbstract` is idempotent when no alias points at another alias. |
| ContainerProperties.AliasChainNotFollowed | src/Container.js:211-219 | An alias of an alias resolves only one step. |
| ContainerProperties.AliasResolvesLikeTarget | src/Container.js:116-122 | After `alias(x, name)`, `make(name)` gives the same result as `make(x)`, as long as `x` is not itself an alias. |
| ContainerProperties.MakeOkImpliesBound | src/Container.js:144-174 | `make` only succeeds for a bound name. For an unbound name it throws BindingException naming that name. |
| ContainerProperties.BindThenMake | src/Container.js:184-200 | A callback registered with `bind` resolves to the callback invoked with the parameters. A class registered with `bindInstance` resolves to a new instance, the parameters ignored. A shared registration under `size` throws TypeError instead. |
| ContainerProperties.AsWrittenBindNeverInvokes | src/Container.js:262 | With the constructor as declared, a callback registered with `bind` is instantiated with `new` instead of being called (a shared one under `size` throws TypeError). |
| ContainerProperties.NullConcreteCannotBeMade | src/Container.js:78 | `bind(a)` with no callback leaves `a` bound. Resolving it raises a TypeError. |
| ContainerProperties.MakeNeverCaches | src/Container.js:169-171 | After `make` of a shared binding, the instances Map still has no entry for it. For an abstract that is not intrusive, the next `make` answers as the first would have with its parameters: it builds the binding again (or throws again under `size`). |
| ContainerProperties.SizeNeverResolves | src/Container.js:169-171 | A `singleton` under `size` is bound, but every `make` of it throws TypeError and changes nothing. |
| ContainerProperties.SharedHasShadowsMethod | src/Container.js:169-171 | A shared `make` of `has` succeeds once and leaves an own `has` property on the instances Map, replacing the method later calls use. |
| ContainerProperties.MakeCachingReturnsCached | src/Container.js:151-156 | With the intended write, the second `make` of a shared binding returns the first result, whatever its parameters, and changes nothing. |
| ContainerProperties.FlushUnbindsAll | src/Container.js:246-250 | After `flush` no name is bound, and flushing twice is the same as flushing once. |
| ContainerProperties.ForgetChangesNothing | src/Container.js:243 | `forget` succeeds and changes neither what is bound nor what `make` returns. |
| ContainerProperties.ApplyKeepsInvariant | src/Container.js:78-265 | Every public call preserves two facts: each binding is stored under its own abstract with an accepted concrete, and the instances Map is empty. |
| ContainerProperties.RunKeepsInvariant | src/Container.js:11-25 | Any sequence of public calls preserves the invariant. |
| ContainerProperties.ApplyKeepsMethodsIntact | src/Container.js:78-265 | Every public call other than a `make` of an intrusive abstract keeps the Map methods the container calls intact. |
| ContainerProperties.ReachableMakeAlwaysBuilds | src/Container.js:151-171 | In every state reachable from the initial one, the instances Map is empty. While its methods are intact, `make` builds the binding on every call, shared or not, or throws: for an unbound name, and for a shared binding under `size`. |
| Strings.Split | src/Utilities/Reflection.js:40 | `split` yields one more piece than there are separators. No piece contains the separator, and the pieces joined with it give back the input. |
| Strings.SplitAtFirstSeparator | src/Utilities/Reflection.js:40 | Splitting a text that starts with a separator-free piece and a separator yields that piece, then the split of the rest. |
| Strings.SplitUnique | src/Utilities/Reflection.js:40 | Any non-empty list of separator-free pieces is the split of its own join, so `split` is the unique such cut. |
| Strings.BeforeFirst | src/Utilities/Reflection.js:43-44 | `split('=')[0]` is a prefix of the segment without `=`. It stops at the first `=` or at the end. |
| Strings.BeforeFirstCharacterised | src/Utilities/Reflection.js:43-44 | The first piece of `u = v` is `u` when `u` has no `=`. |
| Strings.TrimStart | src/Utilities/Reflection.js:44 | The result is a suffix, everything cut is white space, and the result does not start with white space. |
| Strings.TrimEnd | src/Utilities/Reflection.js:44 | The result is a prefix, everything cut is white space, and the result does not end with white space. |
| Strings.Trim | src/Utilities/Reflection.js:44 | `trim` yields an infix with only white space cut from either end, and the result neither starts nor ends with white space. |
| Strings.TrimUnique | src/Utilities/Reflection.js:44 | Any infix with those two properties is the trim, so the two properties fully determine `trim`. |
| Strings.TrimAround | src/Utilities/Reflection.js:44 | Trimming a tight string with white space put around it gives that string back. |
| Strings.FindComment | src/Utilities/Reflection.js:47 | It finds the leftmost start of a `/\*.*\*\/` match and, for that start, the longest one. The match does not cross a line terminator. No match means there is none at any position. |
| Strings.StripComment | src/Utilities/Reflection.js:47 | The replacement leaves a text without a match unchanged. Otherwise it cuts out exactly the leftmost, longest match, the one the regular expression search picks. |
| Strings.FirstGreedyUnique | src/Utilities/Reflection.js:47 | A text has at most one leftmost, longest comment match. |
| Strings.StripCommentCharacterised | src/Utilities/Reflection.js:47 | A text holding a comment is always shortened, so the replacement is never the identity on it. A text without `/` is unchanged. |
| Strings.StripLeadingComment | src/Utilities/Reflection.js:47 | A comment at the start is cut out whole when nothing after it could close a longer one. |
| Reflection.MatchAt | src/Utilities/Reflection.js:62 | At a given start, the pattern `keyword[^(]*\(([^)]*)\)` has at most one match. It is found exactly when one exists. |
| Reflection.Search | src/Utilities/Reflection.js:62 | `match` returns the captured group of the leftmost match, or null exactly when there is no match. |
| Reflection.SearchFindsLeftmost | src/Utilities/Reflection.js:62 | Given the leftmost match, the search returns its captured group. |
| Reflection.MissingLetterRulesOut | src/Utilities/Reflection.js:62-66 | A keyword with a letter the text lacks has no match. |
| Reflection.RawArgs | src/Utilities/Reflection.js:61-73 | `_getRawArgs` gives the group after `function` if that pattern matches, else the group after `constructor`. It fails exactly when neither matches. The text never contains `)`. |
| Reflection.CleanArg | src/Utilities/Reflection.js:43-47 | A cleaned segment neither starts nor ends with white space and contains no `=`. |
| Reflection.CleanArgKeepsAbsence | src/Utilities/Reflection.js:43-47 | Cleaning never introduces a character the segment lacks. |
| Reflection.CleanArgOfPlainSegment | src/Utilities/Reflection.js:43-47 | A segment without a default or a comment is only trimmed. A default value after `=` is dropped. |
| Reflection.CleanArgOfName | src/Utilities/Reflection.js:43-47 | A name with white space around it, with or without a default, cleans to the bare name. |
| Reflection.CleanArgOfCommentedName | src/Utilities/Reflection.js:43-47 | A name after an inline comment on one line, with or without a default, cleans to the bare name. The comment body must not contain `=`: the source cuts at the first `=` before it removes the comment. |
| Reflection.NonEmpty | src/Utilities/Reflection.js:48-51 | The filter keeps exactly the non-empty strings. |
| Reflection.NonEmptyKeepsOrder | src/Utilities/Reflection.js:48-51 | The filter commutes with concatenation, so the kept names stay in their order. |
| Reflection.NonEmptyKeepsNonEmpty | src/Utilities/Reflection.js:48-51 | A list without empty strings passes the filter unchanged. |
| Reflection.CleanAll | src/Utilities/Reflection.js:40-47 | The map cleans each segment in place. |
| Reflection.NamesOf | src/Utilities/Reflection.js:40-51 | There are at most as many names as segments. Each name is non-empty and tight, and contains no `,`, `=` or `)`. |
| Reflection.NamesOfCharacterised | src/Utilities/Reflection.js:40-51 | A string is returned exactly when it is non-empty and is the cleaned form of some segment. |
| Reflection.NameKept | src/Utilities/Reflection.js:40-51 | Every segment that cleans to a non-empty name contributes that name. |
| Reflection.ArgumentNames | src/Utilities/Reflection.js:25-52 | A non-function throws TypeError with the source's message. A function throws exactly when no parameter text is found. Otherwise it returns the names of the first matched parameter text: well-formed, at most one per segment. |
| Reflection.ArgumentNamesCharacterised | src/Utilities/Reflection.js:25-52 | For a function whose source has a parameter text, a string is among the returned names exactly when it is the non-empty cleaned form of one of its segments. |
| ReflectionExamples.FunctionSourceRaw | src/Utilities/Reflection.js:62 | In a function expression's source, the parameter text is captured. |
| ReflectionExamples.ConstructorSourceRaw | src/Utilities/Reflection.js:62-66 | In a class source without the word `function`, the text of the first `constructor(...)` is captured. |
| ReflectionExamples.ClassHead | tests/unit/utilities/ReflectionTest.js:52-53 | `class A { ` holds neither keyword when the class name has no `c` or `i`. |
| ReflectionExamples.ThreeSegments | src/Utilities/Reflection.js:40-51 | Three comma-joined segments that clean to non-empty names yield those names and no more than three. |
| ReflectionExamples.PlainListNames | tests/unit/utilities/ReflectionTest.js:39 | `a, b, c` yields each of the three names. |
| ReflectionExamples.DefaultListNames | tests/unit/utilities/ReflectionTest.js:67 | `a = x, b = y, c = z` yields the names without their defaults. |
| ReflectionExamples.CommentListNames | tests/unit/utilities/ReflectionTest.js:89 | A list whose first name carries an inline comment yields the names without the comment or the defaults. |
| ReflectionExamples.FunctionArgumentNames | src/Utilities/Reflection.js:25-73 | For a function expression, `argumentNames` succeeds with the names of its parameter text. |
| ReflectionExamples.ClassArgumentNames | src/Utilities/Reflection.js:25-73 | For a class source in which `function` has no match, `argumentNames` succeeds with the names of the first constructor's parameter text. |
| ReflectionExamples.TestNamesQualify | tests/unit/utilities/ReflectionTest.js:39 | `foo`, `bar` and `baz` are plain names without `i`. |
| ReflectionExamples.TestValuesQualify | tests/unit/utilities/ReflectionTest.js:67-89 | The defaults `'bar'`, `true`, `[]` and `false`, and the class name `A`, contain none of the characters the lemmas exclude. |
| ReflectionExamples.CommentQualifies | tests/unit/utilities/ReflectionTest.js:89 | The comment body `* @type {array} ` stays on one line and has no `,`, `=`, `)` or `i`. |
| ReflectionExamples.PlainFunctionTest | tests/unit/utilities/ReflectionTest.js:37-48 | `function(foo, bar, baz){}` yields a list containing the three names and no others. |
| ReflectionExamples.PlainClassTest | tests/unit/utilities/ReflectionTest.js:50-63 | The class with `constructor(foo, bar, baz){}` yields the three names and no others. |
| ReflectionExamples.DefaultFunctionTest | tests/unit/utilities/ReflectionTest.js:70-84 | The function with default values yields the three names and no defaults. |
| ReflectionExamples.DefaultClassTest | tests/unit/utilities/ReflectionTest.js:65-81 | The class with default values yields the three names and no defaults. |
| ReflectionExamples.CommentClassTest | tests/unit/utilities/ReflectionTest.js:87-99 | The class whose first parameter carries an inline comment yields the three names, without the comment. |

## Left out

- `Reflection.isClass` is not modelled: it is deprecated and relies on `Function.name` and engine-specific source text.
- The calls into user code are not modelled: invoking a callback and running a class constructor. Their results are the terms `Invoked(fn, params)` and `NewOf(fn)`. Exceptions they throw, and callbacks that mutate the container, are not modelled.
- The module-level `Object.freeze` of the singleton container is not modelled. The getters `bindings`, `aliases` and `instances` (src/Container.js:48-68) are not modelled: they return the live Maps, and callers may change them directly.
- ContainerProperties.Invariant: holds only for states reached through the container's methods. A caller that writes the Maps through the getters can break it.
- ContainerProperties.RunKeepsInvariant: covers sequences of the container's public calls only, not direct writes to the Maps through the getters.
- ContainerProperties.ReachableMakeAlwaysBuilds: covers states reached through the container's public calls only, and states only those whose Map methods are intact.
- Container.Make: once a shared `make` has assigned an own property `has`, `get`, `clear` or `__proto__` on the instances Map, later `bound`, `alias`, `make` and `flush` call the stored result or a replaced prototype. That is user code, and the model does not follow it. Every member whose conclusion depends on what Bound, Alias, Make or Flush answer describes the source only in states where Container.MethodsIntact holds: Container.Bound, Container.Alias, Container.Flush, ContainerProperties.MakeNeverCaches, ContainerProperties.BindThenMake, ContainerProperties.AliasResolvesLikeTarget, ContainerProperties.FlushUnbindsAll, ContainerProperties.MakeOkImpliesBound, ContainerProperties.SizeNeverResolves, ContainerProperties.NullConcreteCannotBeMade and ContainerProperties.AsWrittenBindNeverInvokes. (BindSetsDiscriminator, FailedBindChangesNothing and ForgetChangesNothing hold regardless: `bindings.has` answers first, or the state is unchanged.) For example, after a shared `make('has')` whose result is a function, `flush` leaves that property, and `bound` then calls it. Assigning a property named after another Map.prototype or Object.prototype member only shadows it for outside callers. The `size` case, where the assignment throws, is modelled.
- ContainerProperties.MakeNeverCaches: the second call is described only for an abstract that is not intrusive.
- Container.Build: a `Func` token stands for a function that can be both called and instantiated with `new`. Arrow functions and methods, which cannot be instantiated, and classes, which cannot be called, are not distinguished.
- Obtaining a function's source text (`func.prototype.constructor.toString()`) is a parameter. So is whether a function has a `prototype`: functions without one, such as arrow functions and methods, are not modelled.
- Abstracts and aliases are modelled as strings, as the JSDoc types them (src/Container.js:74, src/Entries/Binding.js:30). The `abstract` setter and the Maps accept any value; keys of other types are not modelled.
- Container.Build: the parameters are modelled as an array of values, as the JSDoc types them (src/Container.js:138, 180). The default `parameters = []` is the empty sequence, and a non-array argument such as `make(a, null)`, which the source passes on to the callback as is, is not modelled.
- Numbers are modelled as integers. Fractions and negative zero are not distinguished, and NaN (falsy) cannot be represented.
- Exception class hierarchies are folded into one `Error` datatype: `BindingException`, `IoCError` and `BuildException`. `HasDependencies`, `index.js` and the build configuration are outside the core.
- ReflectionExamples.PlainFunctionTest: states that the names are contained and number at most three, not the exact list, because the tests only check containment.
- ReflectionExamples.PlainClassTest: the class source is written on one line. The class name must avoid the letters `c` and `i`, and the names must avoid `i`, so that no `function` or earlier `constructor` can match. The test's own values meet this.
- ReflectionExamples.DefaultFunctionTest: a default value containing `,` or `)` is excluded. The source cuts such a list in the wrong place.
- ReflectionExamples.DefaultClassTest: has the same restrictions as PlainClassTest and DefaultFunctionTest.
- ReflectionExamples.CommentClassTest: the comment must stay on one line and have no `,`, `=` or `)`. The test's `/** @type {array} */` meets this.
- ReflectionExamples.ThreeSegments: states containment and the length bound rather than the exact list, for the same reason as PlainFunctionTest.

## Findings

| source | as written | input that shows it | evidently intended | confidence | as-written member | corrected member |
|---|---|---|---|---|---|---|
| src/Container.js:169-171 | `this.instances[abstract] = object` assigns a property of the Map object instead of adding an entry, so `has` and `get` never find it (for an abstract that names no Map.prototype member) | `singleton('a', f)`, then `make('a')` twice: `f` runs twice | `this.instances.set(abstract, object)`, so the second call returns the cached object | not executed | ContainerProperties.MakeNeverCaches | ContainerProperties.MakeCachingReturnsCached |
| src/Entries/Binding.js:21 | The constructor takes three parameters. The fourth argument passed at src/Container.js:262 is dropped, so `binding.isCallback` is `undefined` | `bind('a', f)`, then `make('a')`: `new f` is run instead of `f(container, [])` | A fourth `isCallback` parameter stored on the binding | not executed | ContainerProperties.AsWrittenBindNeverInvokes | ContainerProperties.BindThenMake |

=== FILE: binding.dfy ===
/**
 * The binding record of src/Entries/Binding.js: an abstract identifier, the
 * concrete that produces it, the shared flag, and the callback discriminator.
 *
 * The class as written declares a three-parameter constructor
 * `(abstract, concrete = null, shared = false)` and no `isCallback` accessor,
 * while the container passes a fourth `isCallback` argument and branches on
 * `binding.isCallback`, and the tests read it back. `Construct` models the
 * four-field record the container and the tests rely on;
 * `ConstructAsWritten` models the three-parameter constructor, under which
 * the fourth argument is dropped and `isCallback` reads as `undefined`.
 */
module Bindings {
  import opened Js

  /** Every field holds whatever was assigned to it; only `concrete` is
      checked, by its setter. `abstractId` is the `abstract` property
      (`abstract` is a Dafny keyword). */
  datatype Binding = Binding(abstractId: string, concrete: Value, shared: Value, isCallback: Value)

  const InvalidConcrete: string := "Concrete must be a callback, an object or null"

  /** The guard of the `concrete` setter, written as the source writes it:
      `typeof c` compared with 'function', 'object' and `null`. */
  predicate ConcreteAccepted(c: Value)
    ensures ConcreteAccepted(c) <==> c.Func? || c.Obj? || c.Null?
  {
    var t := TypeOf(c);
    t == Str("function") || t == Str("object") || t == Null
  }

  /** `binding.concrete = c`: the check runs before the write, so a rejected
      value leaves the binding as it was. */
  function SetConcrete(b: Binding, c: Value): (r: Effect<Binding, ()>)
    ensures r.result.Ok? <==> c.Func? || c.Obj? || c.Null?
    ensures r.result.Ok? ==> r.state == b.(concrete := c)
    ensures r.result.Err? ==> r.state == b && r.result.error == BindingException(InvalidConcrete)
  {
    if ConcreteAccepted(c) then Effect(b.(concrete := c), Ok(()))
    else Effect(b, Err(BindingException(InvalidConcrete)))
  }

  /** `binding.abstract = id`: stored without any check. */
  function SetAbstract(b: Binding, id: string): (r: Effect<Binding, ()>)
    ensures r.result.Ok? && r.state.abstractId == id
    ensures r.state.(abstractId := b.abstractId) == b
  {
    Effect(b.(abstractId := id), Ok(()))
  }

  /** `binding.shared = s`: stored without any check. */
  function SetShared(b: Binding, s: Value): (r: Effect<Binding, ()>)
    ensures r.result.Ok? && r.state.shared == s
    ensures r.state.(shared := b.shared) == b
  {
    Effect(b.(shared := s), Ok(()))
  }

  /** `new Binding(abstract, concrete, shared, isCallback)`, with the defaults
      `concrete = null` and `shared = false`. The constructor runs the
      setters in order, so it throws exactly when the `concrete` setter does. */
  function Construct(abstractId: string, concrete: Value, shared: Value, isCallback: Value): (r: Result<Binding>)
    ensures r.Ok? <==> !(concrete.Bool? || concrete.Num? || concrete.BigInt? || concrete.Str? || concrete.Sym?)
    ensures r.Ok? ==> r.value.abstractId == abstractId
    ensures r.Ok? ==> r.value.concrete == (if concrete.Undefined? then Null else concrete)
    ensures r.Ok? ==> r.value.shared == (if shared.Undefined? then Bool(false) else shared)
    ensures r.Ok? ==> r.value.isCallback == isCallback
    ensures r.Err? ==> r.error == BindingException(InvalidConcrete)
  {
    var c := Default(concrete, Null);
    var s := Default(shared, Bool(false));
    if ConcreteAccepted(c) then Ok(Binding(abstractId, c, s, isCallback))
    else Err(BindingException(InvalidConcrete))
  }

  /** The constructor exactly as declared: three parameters, so a fourth
      argument is ignored and `binding.isCallback` is an absent property,
      i.e. `undefined`. */
  function ConstructAsWritten(abstractId: string, concrete: Value, shared: Value, isCallback: Value): (r: Result<Binding>)
    ensures r.Ok? ==> r.value.isCallback == Undefined
  {
    var c := Default(concrete, Null);
    var s := Default(shared, Bool(false));
    if ConcreteAccepted(c) then Ok(Binding(abstractId, c, s, Undefined))
    else Err(BindingException(InvalidConcrete))
  }

  /** The `type === null` disjunct of the guard can never hold: `typeof`
      always yields a string, and `typeof null` is 'object'. So the guard
      amounts to "a function or an object, null included". */
  lemma NullDisjunctIsDead(c: Value)
    ensures TypeOf(c) != Null
    ensures ConcreteAccepted(c) <==> TypeOf(c) == Str("function") || TypeOf(c) == Str("object")
    ensures ConcreteAccepted(c) <==> c.Func? || c.Obj? || c.Null?
  {
  }

  /** Assigning `concrete` directly fails exactly for the primitives other
      than null: strings, numbers, big integers, booleans, symbols, and
      `undefined` (a setter has no default to fall back on). */
  lemma SetConcreteRejectsPrimitives(b: Binding, c: Value)
    ensures SetConcrete(b, c).result.Err? <==>
      c.Str? || c.Num? || c.BigInt? || c.Bool? || c.Sym? || c.Undefined?
  {
  }

  /** The setters read back: after a successful assignment the getter
      returns exactly what was assigned and the other fields are untouched;
      `abstract` accepts every string and `shared` every value. */
  lemma SettersReadBack(b: Binding, id: string, c: Value, s: Value)
    ensures SetAbstract(b, id).result.Ok? && SetAbstract(b, id).state.abstractId == id
    ensures SetAbstract(b, id).state.(abstractId := b.abstractId) == b
    ensures SetShared(b, s).result.Ok? && SetShared(b, s).state.shared == s
    ensures SetShared(b, s).state.(shared := b.shared) == b
    ensures SetConcrete(b, c).result.Ok? ==> SetConcrete(b, c).state.concrete == c
    ensures SetConcrete(b, c).state.(concrete := b.concrete) == b
  {
  }

  /** The constructor is the three setters run in order on a fresh object,
      whatever that object held before, plus the `isCallback` field. */
  lemma ConstructIsSetterSequence(blank: Binding, abstractId: string, concrete: Value, shared: Value, isCallback: Value)
    ensures var afterConcrete := SetConcrete(SetAbstract(blank, abstractId).state, Default(concrete, Null));
      && (Construct(abstractId, concrete, shared, isCallback).Ok? <==> afterConcrete.result.Ok?)
      && (afterConcrete.result.Ok? ==>
            Construct(abstractId, concrete, shared, isCallback).value
            == SetShared(afterConcrete.state, Default(shared, Bool(false))).state.(isCallback := isCallback))
  {
  }

  /** `new Binding(abstract)` never throws: the omitted concrete defaults to
      null, which is accepted, and the omitted shared flag to false. */
  lemma ConstructWithDefaultsSucceeds(abstractId: string, isCallback: Value)
    ensures Construct(abstractId, Undefined, Undefined, isCallback)
         == Ok(Binding(abstractId, Null, Bool(false), isCallback))
  {
  }

  /** The constructor as written agrees with the four-field one on whether it
      throws and on the first three fields, and discards the fourth: the
      stored discriminator is never truthy. */
  lemma AsWrittenDropsIsCallback(abstractId: string, concrete: Value, shared: Value, isCallback: Value)
    ensures ConstructAsWritten(abstractId, concrete, shared, isCallback).Ok?
        <==> Construct(abstractId, concrete, shared, isCallback).Ok?
    ensures ConstructAsWritten(abstractId, concrete, shared, isCallback).Ok? ==>
      && ConstructAsWritten(abstractId, concrete, shared, isCallback).value
         == Construct(abstractId, concrete, shared, isCallback).value.(isCallback := Undefined)
      && !Truthy(ConstructAsWritten(abstractId, concrete, shared, isCallback).value.isCallback)
  {
  }
}

=== FILE: container.dfy ===
/**
 * The service container of src/Container.js. Its state is the three
 * module-level maps (bindings, aliases, shared instances); every public
 * method is a function from a state to the state after the call and what the
 * call returned or threw.
 */
module Container {
  import opened Js
  import opened Bindings

  /** What `make` hands back. A callback binding yields whatever
      `concrete(container, parameters)` returns and a class binding yields
      `new concrete`; both are calls into user code, so their results are kept
      as terms naming the function token and what it was given. */
  datatype Instance = Invoked(callback: nat, params: seq<Value>) | NewOf(ctor: nat)

  /** The container's state. `instances` holds the entries of the shared
      instances Map (what `has`, `get`, `set` and `clear` see);
      `instanceProps` holds the own properties assigned on that Map object
      with `instances[key] = value`. Such a property is not an entry: `clear`
      does not remove it, and under a key that names no member of
      Map.prototype or Object.prototype no Map method reads it. Under `size`
      the assignment throws (see SizeKey); under `has`, `get`, `clear` or
      `__proto__` it replaces what later calls use (see Intrusive). */
  datatype State = State(
    bindings: map<string, Binding>,
    aliases: map<string, string>,
    instances: map<string, Instance>,
    instanceProps: map<string, Instance>)

  /** The state when the module is loaded: three new, empty Maps. */
  const Empty: State := State(map[], map[], map[], map[])

  const NoAliasTarget: string := "\". Abstract has no binding."

  function AliasError(a: string): Error
  {
    BindingException("Cannot assign alias for abstract \"" + a + NoAliasTarget)
  }

  function NoBindingError(a: string): Error
  {
    BindingException("No binding found for abstract \"" + a + "\"")
  }

  /** `size` is an accessor of Map.prototype without a setter: in strict
      mode, assigning it on a Map throws a TypeError. */
  const SizeKey: string := "size"

  /** The keys under which a property assignment on the instances Map shadows
      a method the container itself calls later (`bound` and `make` call
      `has`, `make` calls `get`, `flush` calls `clear`), or replaces the Map's
      prototype (`__proto__`). Keys naming other prototype members (`set`,
      `keys`, `toString`, ...) only shadow members the container never uses. */
  predicate Intrusive(k: string)
  {
    k == "has" || k == "get" || k == "clear" || k == "__proto__"
  }

  /** No intrusive property has been assigned: the Map methods the container
      calls are still the built-in ones, so `bound`, `alias`, `make` and
      `flush` behave as modelled here. */
  ghost predicate MethodsIntact(st: State)
  {
    forall k :: k in st.instanceProps ==> !Intrusive(k)
  }

  /** `st2` is `st` with the binding `b` stored under `a`, replacing any
      previous one, and nothing else changed. */
  ghost predicate StoredOnly(st: State, st2: State, a: string, b: Binding)
  {
    && a in st2.bindings && st2.bindings[a] == b
    && st2.bindings.Keys == st.bindings.Keys + {a}
    && (forall k :: k in st.bindings && k != a ==> st2.bindings[k] == st.bindings[k])
    && st2.aliases == st.aliases
    && st2.instances == st.instances
    && st2.instanceProps == st.instanceProps
  }

  /** `bound(a)`: the name has a binding, a shared instance, or is an alias. */
  predicate Bound(st: State, a: string)
    ensures GetBinding(st, a).Ok? || GetAbstract(st, a) != a ==> Bound(st, a)
    ensures !Bound(st, a) ==> GetAbstract(st, a) == a && GetBinding(st, a).Err?
  {
    a in st.bindings || a in st.instances || a in st.aliases
  }

  /** `_bind(abstract, concrete = null, shared = false, isConcreteCallback = true)`:
      build a binding and store it under its own abstract. If the binding's
      constructor throws, the store is never reached. */
  function BindWith(st: State, a: string, concrete: Value, shared: Value, isCallback: Value): (r: Effect<State, ()>)
    ensures r.result.Err? <==> concrete.Bool? || concrete.Num? || concrete.BigInt? || concrete.Str? || concrete.Sym?
    ensures r.result.Err? ==> r.state == st && r.result.error == BindingException(InvalidConcrete)
    ensures r.result.Ok? ==> StoredOnly(st, r.state, a,
      Binding(a, Default(concrete, Null), Default(shared, Bool(false)), Default(isCallback, Bool(true))))
    ensures r.result.Ok? ==> Bound(r.state, a)
  {
    match Construct(a, Default(concrete, Null), Default(shared, Bool(false)), Default(isCallback, Bool(true)))
    case Err(e) => Effect(st, Err(e))
    case Ok(b) => Effect(st.(bindings := st.bindings[b.abstractId := b]), Ok(()))
  }

  /** `_bind` with the binding constructor as declared (three parameters):
      the `isConcreteCallback` argument never reaches the binding. */
  function BindWithAsWritten(st: State, a: string, concrete: Value, shared: Value, isCallback: Value): (r: Effect<State, ()>)
    ensures r.result.Ok? ==> a in r.state.bindings && !Truthy(r.state.bindings[a].isCallback)
  {
    match ConstructAsWritten(a, Default(concrete, Null), Default(shared, Bool(false)), Default(isCallback, Bool(true)))
    case Err(e) => Effect(st, Err(e))
    case Ok(b) => Effect(st.(bindings := st.bindings[b.abstractId := b]), Ok(()))
  }

  /** `bind(abstract, callback = null, shared = false)`: a callback binding. */
  function Bind(st: State, a: string, callback: Value, shared: Value): (r: Effect<State, ()>)
    ensures r.result.Err? <==> callback.Bool? || callback.Num? || callback.BigInt? || callback.Str? || callback.Sym?
    ensures r.result.Err? ==> r.state == st
    ensures r.result.Ok? ==> StoredOnly(st, r.state, a,
      Binding(a, Default(callback, Null), Default(shared, Bool(false)), Bool(true)))
  {
    BindWith(st, a, Default(callback, Null), Default(shared, Bool(false)), Bool(true))
  }

  /** `bindInstance(abstract, instance = null, shared = false)`: a binding
      whose concrete is instantiated with `new`. */
  function BindInstance(st: State, a: string, instance: Value, shared: Value): (r: Effect<State, ()>)
    ensures r.result.Err? <==> instance.Bool? || instance.Num? || instance.BigInt? || instance.Str? || instance.Sym?
    ensures r.result.Err? ==> r.state == st
    ensures r.result.Ok? ==> StoredOnly(st, r.state, a,
      Binding(a, Default(instance, Null), Default(shared, Bool(false)), Bool(false)))
  {
    BindWith(st, a, Default(instance, Null), Default(shared, Bool(false)), Bool(false))
  }

  /** `singleton(abstract, callback = null)`. */
  function Singleton(st: State, a: string, callback: Value): (r: Effect<State, ()>)
    ensures r.result.Err? <==> callback.Bool? || callback.Num? || callback.BigInt? || callback.Str? || callback.Sym?
    ensures r.result.Err? ==> r.state == st
    ensures r.result.Ok? ==> StoredOnly(st, r.state, a, Binding(a, Default(callback, Null), Bool(true), Bool(true)))
  {
    Bind(st, a, callback, Bool(true))
  }

  /** `singletonInstance(abstract, instance = null)`. */
  function SingletonInstance(st: State, a: string, instance: Value): (r: Effect<State, ()>)
    ensures r.result.Err? <==> instance.Bool? || instance.Num? || instance.BigInt? || instance.Str? || instance.Sym?
    ensures r.result.Err? ==> r.state == st
    ensures r.result.Ok? ==> StoredOnly(st, r.state, a, Binding(a, Default(instance, Null), Bool(true), Bool(false)))
  {
    BindInstance(st, a, instance, Bool(true))
  }

  /** `alias(abstract, alias)`: refused unless the abstract is bound;
      otherwise the alias is (re)pointed at the abstract. */
  function Alias(st: State, a: string, x: string): (r: Effect<State, ()>)
    ensures r.result.Err? <==> !Bound(st, a)
    ensures r.result.Err? ==> r.state == st && r.result.error == AliasError(a)
    ensures r.result.Ok? ==>
      && r.state.aliases.Keys == st.aliases.Keys + {x}
      && r.state.aliases[x] == a
      && (forall k :: k in st.aliases && k != x ==> r.state.aliases[k] == st.aliases[k])
      && r.state.bindings == st.bindings
      && r.state.instances == st.instances
      && r.state.instanceProps == st.instanceProps
      && Bound(r.state, x)
  {
    if !Bound(st, a) then Effect(st, Err(AliasError(a)))
    else Effect(st.(aliases := st.aliases[x := a]), Ok(()))
  }

  /** `getAbstract(alias)`: one alias step, or the name itself. */
  function GetAbstract(st: State, x: string): (r: string)
    ensures x in st.aliases ==> r == st.aliases[x]
    ensures x !in st.aliases ==> r == x
  {
    if x !in st.aliases then x else st.aliases[x]
  }

  /** `getBinding(abstract)`: the binding stored under exactly this name. */
  function GetBinding(st: State, a: string): (r: Result<Binding>)
    ensures r.Ok? <==> a in st.bindings
    ensures r.Ok? ==> r.value == st.bindings[a]
    ensures r.Err? ==> r.error == NoBindingError(a)
  {
    if a !in st.bindings then Err(NoBindingError(a)) else Ok(st.bindings[a])
  }

  /** `build(binding, parameters = [])`. A truthy `isCallback` calls the
      concrete with the container and the parameters; otherwise the concrete
      is instantiated with `new` and no arguments. Calling or instantiating a
      concrete that is not a function (null, a plain object) is a TypeError
      raised by the engine. */
  function Build(b: Binding, params: seq<Value>): (r: Result<Instance>)
    ensures r.Ok? <==> b.concrete.Func?
    ensures r.Err? ==> r.error == EngineTypeError
    ensures r.Ok? && Truthy(b.isCallback) ==> r.value == Invoked(b.concrete.fn, params)
    ensures r.Ok? && !Truthy(b.isCallback) ==> r.value == NewOf(b.concrete.fn)
  {
    if Truthy(b.isCallback) then
      (if b.concrete.Func? then Ok(Invoked(b.concrete.fn, params)) else Err(EngineTypeError))
    else
      (if b.concrete.Func? then Ok(NewOf(b.concrete.fn)) else Err(EngineTypeError))
  }

  /** `make(abstract, parameters = [])`, as written: one alias step, then a
      shared instance if the instances Map has one, else the binding is
      built. For a shared binding the result is assigned as a property of the
      instances Map object, not stored as an entry, so the three Maps are
      never changed; under `size` that assignment throws after the build. */
  function Make(st: State, x: string, params: seq<Value>): (r: Effect<State, Instance>)
    ensures r.state.bindings == st.bindings
    ensures r.state.aliases == st.aliases
    ensures r.state.instances == st.instances
    ensures GetAbstract(st, x) in st.instances ==>
      r.result == Ok(st.instances[GetAbstract(st, x)]) && r.state == st
    ensures GetAbstract(st, x) !in st.instances && GetAbstract(st, x) !in st.bindings ==>
      r.result == Err(NoBindingError(GetAbstract(st, x)))
    ensures GetAbstract(st, x) !in st.instances && GetAbstract(st, x) in st.bindings
            && !(Truthy(st.bindings[GetAbstract(st, x)].shared) && GetAbstract(st, x) == SizeKey) ==>
      r.result == Build(st.bindings[GetAbstract(st, x)], params)
    ensures GetAbstract(st, x) !in st.instances && GetAbstract(st, x) in st.bindings
            && Truthy(st.bindings[GetAbstract(st, x)].shared) && GetAbstract(st, x) == SizeKey ==>
      r == Effect(st, Err(EngineTypeError))
    ensures GetAbstract(st, x) !in st.instances && GetAbstract(st, x) in st.bindings
            && Truthy(st.bindings[GetAbstract(st, x)].shared) && GetAbstract(st, x) != SizeKey && r.result.Ok? ==>
      r.state.instanceProps == st.instanceProps[GetAbstract(st, x) := r.result.value]
    ensures r.state.instanceProps != st.instanceProps ==>
      && GetAbstract(st, x) in st.bindings
      && Truthy(st.bindings[GetAbstract(st, x)].shared)
      && GetAbstract(st, x) != SizeKey
      && r.result.Ok?
      && r.state.instanceProps == st.instanceProps[GetAbstract(st, x) := r.result.value]
  {
    var a := GetAbstract(st, x);
    if a in st.instances then Effect(st, Ok(st.instances[a]))
    else
      match GetBinding(st, a)
      case Err(e) => Effect(st, Err(e))
      case Ok(b) =>
        match Build(b, params)
        case Err(e) => Effect(st, Err(e))
        case Ok(o) =>
          if !Truthy(b.shared) then Effect(st, Ok(o))
          else if a == SizeKey then Effect(st, Err(EngineTypeError))
          else Effect(st.(instanceProps := st.instanceProps[a := o]), Ok(o))
  }

  /** `make` as its comments intend: a shared result is stored with
      `instances.set(abstract, object)`, so later calls find it. */
  function MakeCaching(st: State, x: string, params: seq<Value>): (r: Effect<State, Instance>)
    ensures r.state.bindings == st.bindings && r.state.aliases == st.aliases
    ensures GetAbstract(st, x) != SizeKey ==> r.result == Make(st, x, params).result
    ensures GetAbstract(st, x) !in st.instances && GetAbstract(st, x) in st.bindings ==>
      r.result == Build(st.bindings[GetAbstract(st, x)], params)
    ensures (r.result.Ok? && GetAbstract(st, x) !in st.instances && GetAbstract(st, x) in st.bindings
             && Truthy(st.bindings[GetAbstract(st, x)].shared)) ==>
      r.state.instances == st.instances[GetAbstract(st, x) := r.result.value]
  {
    var a := GetAbstract(st, x);
    if a in st.instances then Effect(st, Ok(st.instances[a]))
    else
      match GetBinding(st, a)
      case Err(e) => Effect(st, Err(e))
      case Ok(b) =>
        match Build(b, params)
        case Err(e) => Effect(st, Err(e))
        case Ok(o) =>
          if Truthy(b.shared) then Effect(st.(instances := st.instances[a := o]), Ok(o))
          else Effect(st, Ok(o))
  }

  /** `forget(abstract)`: its body is empty. */
  function Forget(st: State, a: string): (r: Effect<State, ()>)
    ensures r.result.Ok? && r.state == st
  {
    Effect(st, Ok(()))
  }

  /** `flush()`: clears the three Maps. Properties assigned on the instances
      Map object are not entries, so `clear` leaves them. */
  function Flush(st: State): (r: Effect<State, ()>)
    ensures r.result.Ok?
    ensures r.state.bindings == map[] && r.state.aliases == map[] && r.state.instances == map[]
    ensures r.state.instanceProps == st.instanceProps
  {
    Effect(State(map[], map[], map[], st.instanceProps), Ok(()))
  }
}

=== FILE: container_properties.dfy ===
/**
 * Properties of the container model that relate several calls: what a
 * registration makes resolvable, what aliases do and do not do, the caching
 * that `make` does not perform, and the invariants every sequence of public
 * calls keeps from the initial (empty) state.
 */
module ContainerProperties {
  import opened Js
  import opened Bindings
  import opened Container

  /** After `bind` or `bindInstance` succeeds the name is bound, and
      `getBinding` returns a binding whose discriminator is `true` for `bind`
      and `false` for `bindInstance`. */
  lemma BindSetsDiscriminator(st: State, a: string, concrete: Value, shared: Value)
    ensures Bind(st, a, concrete, shared).result.Ok? ==>
      && Bound(Bind(st, a, concrete, shared).state, a)
      && GetBinding(Bind(st, a, concrete, shared).state, a).Ok?
      && GetBinding(Bind(st, a, concrete, shared).state, a).value.isCallback == Bool(true)
    ensures BindInstance(st, a, concrete, shared).result.Ok? ==>
      && Bound(BindInstance(st, a, concrete, shared).state, a)
      && GetBinding(BindInstance(st, a, concrete, shared).state, a).Ok?
      && GetBinding(BindInstance(st, a, concrete, shared).state, a).value.isCallback == Bool(false)
  {
  }

  /** `singleton` is `bind` with `shared = true`: it stores the same binding
      as a non-shared `bind` except for the shared flag, and fails on the same
      inputs. Likewise for `singletonInstance` and `bindInstance`. */
  lemma SingletonIsSharedBind(st: State, a: string, concrete: Value)
    ensures Singleton(st, a, concrete) == Bind(st, a, concrete, Bool(true))
    ensures SingletonInstance(st, a, concrete) == BindInstance(st, a, concrete, Bool(true))
    ensures Singleton(st, a, concrete).result == Bind(st, a, concrete, Undefined).result
    ensures Singleton(st, a, concrete).result.Ok? ==>
      Singleton(st, a, concrete).state.bindings
      == st.bindings[a := Bind(st, a, concrete, Undefined).state.bindings[a].(shared := Bool(true))]
    ensures SingletonInstance(st, a, concrete).result.Ok? ==>
      SingletonInstance(st, a, concrete).state.bindings
      == st.bindings[a := BindInstance(st, a, concrete, Undefined).state.bindings[a].(shared := Bool(true))]
  {
  }

  /** Re-registering a name replaces its binding wholesale: only the last
      registration is visible. */
  lemma RebindReplaces(st: State, a: string, c1: Value, s1: Value, c2: Value, s2: Value)
    requires Bind(st, a, c1, s1).result.Ok?
    requires BindInstance(Bind(st, a, c1, s1).state, a, c2, s2).result.Ok?
    ensures BindInstance(Bind(st, a, c1, s1).state, a, c2, s2).state
         == BindInstance(st, a, c2, s2).state
  {
  }

  /** A failed registration (a primitive concrete) changes nothing, so a
      name that was not bound stays unbound. */
  lemma FailedBindChangesNothing(st: State, a: string, concrete: Value, shared: Value)
    requires concrete.Str? || concrete.Num? || concrete.Bool? || concrete.BigInt? || concrete.Sym?
    ensures Bind(st, a, concrete, shared) == Effect(st, Err(BindingException(InvalidConcrete)))
    ensures BindInstance(st, a, concrete, shared) == Effect(st, Err(BindingException(InvalidConcrete)))
    ensures Bound(Bind(st, a, concrete, shared).state, a) == Bound(st, a)
  {
  }

  /** `getBinding` never consults the aliases: whatever they hold, the
      answer is the same. */
  lemma GetBindingIgnoresAliases(st: State, aliases: map<string, string>, a: string)
    ensures GetBinding(st.(aliases := aliases), a) == GetBinding(st, a)
  {
  }

  /** `getAbstract` takes exactly one step: it is idempotent when no alias
      points at another alias, and here is a chain it does not follow. */
  lemma GetAbstractOneStep(st: State, x: string)
    requires forall k :: k in st.aliases ==> st.aliases[k] !in st.aliases
    ensures GetAbstract(st, GetAbstract(st, x)) == GetAbstract(st, x)
  {
  }

  lemma AliasChainNotFollowed()
    ensures var st := State(map[], map["a" := "b", "b" := "c"], map[], map[]);
      GetAbstract(st, "a") == "b" && GetAbstract(st, GetAbstract(st, "a")) == "c"
  {
  }

  /** `alias(x, name)` followed by `make(name)` resolves exactly like
      `make(x)`, as long as `x` is not itself an alias (chains are not
      followed). */
  lemma AliasResolvesLikeTarget(st: State, x: string, name: string, params: seq<Value>)
    requires Alias(st, x, name).result.Ok?
    requires x !in Alias(st, x, name).state.aliases
    ensures Make(Alias(st, x, name).state, name, params).result
         == Make(Alias(st, x, name).state, x, params).result
  {
  }

  /** Whatever `make` returns, the name it was asked for is bound; so
      `make` of an unbound name always throws BindingException. */
  lemma MakeOkImpliesBound(st: State, x: string, params: seq<Value>)
    ensures Make(st, x, params).result.Ok? ==> Bound(st, x)
    ensures !Bound(st, x) ==> Make(st, x, params).result == Err(NoBindingError(x))
  {
  }

  /** A binding registered with `bind` and a callback resolves by invoking
      the callback with the given parameters; one registered with
      `bindInstance` and a class resolves to a new instance, the parameters
      being ignored. A shared binding under `size` throws instead, at the
      property write after the build. */
  lemma BindThenMake(st: State, a: string, fn: nat, shared: Value, params: seq<Value>)
    requires a !in st.aliases && a !in st.instances
    ensures Make(Bind(st, a, Func(fn), shared).state, a, params).result
         == if Truthy(shared) && a == SizeKey then Err(EngineTypeError) else Ok(Invoked(fn, params))
    ensures Make(BindInstance(st, a, Func(fn), shared).state, a, params).result
         == if Truthy(shared) && a == SizeKey then Err(EngineTypeError) else Ok(NewOf(fn))
  {
  }

  /** With the binding constructor as declared, `bind` loses its
      discriminator, and a callback binding is instantiated with `new`
      instead of being called. */
  lemma AsWrittenBindNeverInvokes(st: State, a: string, fn: nat, shared: Value, params: seq<Value>)
    requires a !in st.aliases && a !in st.instances
    ensures var st2 := BindWithAsWritten(st, a, Func(fn), shared, Bool(true)).state;
      Make(st2, a, params).result
      == if Truthy(shared) && a == SizeKey then Err(EngineTypeError) else Ok(NewOf(fn))
  {
  }

  /** A binding registered without a concrete (`bind(a)`) is bound but
      cannot be resolved: calling or instantiating null is a TypeError. */
  lemma NullConcreteCannotBeMade(st: State, a: string, params: seq<Value>)
    requires a !in st.aliases && a !in st.instances
    ensures Bound(Bind(st, a, Undefined, Undefined).state, a)
    ensures Make(Bind(st, a, Undefined, Undefined).state, a, params).result == Err(EngineTypeError)
  {
  }

  /** The caching gap: `make` of a shared binding leaves the instances Map
      without an entry, so the next `make` answers exactly as the first one
      would have with its parameters: it builds the binding again (or, under
      `size`, throws again) instead of returning the first result. When the
      abstract is intrusive the first `make` has replaced a method the second
      one calls, which this model does not follow. */
  lemma MakeNeverCaches(st: State, x: string, p1: seq<Value>, p2: seq<Value>)
    requires GetAbstract(st, x) !in st.instances
    requires GetAbstract(st, x) in st.bindings
    requires Truthy(st.bindings[GetAbstract(st, x)].shared)
    ensures var st2 := Make(st, x, p1).state;
      && GetAbstract(st2, x) !in st2.instances
      && (!Intrusive(GetAbstract(st, x)) ==> Make(st2, x, p2).result == Make(st, x, p2).result)
      && (GetAbstract(st, x) != SizeKey ==> Make(st, x, p2).result == Build(st.bindings[GetAbstract(st, x)], p2))
  {
  }

  /** Under `size` a shared binding can be registered but never resolved:
      the build runs and the write of its result throws a TypeError. */
  lemma SizeNeverResolves(st: State, fn: nat, params: seq<Value>)
    requires SizeKey !in st.aliases && SizeKey !in st.instances
    ensures var st2 := Singleton(st, SizeKey, Func(fn)).state;
      && Bound(st2, SizeKey)
      && Make(st2, SizeKey, params) == Effect(st2, Err(EngineTypeError))
  {
  }

  /** A shared binding under `has` resolves once, and its result is then the
      instances Map's own `has` property: the state leaves MethodsIntact. */
  lemma SharedHasShadowsMethod(st: State, fn: nat, params: seq<Value>)
    requires "has" !in st.aliases && "has" !in st.instances
    ensures var st2 := Singleton(st, "has", Func(fn)).state;
      && Make(st2, "has", params).result == Ok(Invoked(fn, params))
      && !MethodsIntact(Make(st2, "has", params).state)
  {
    var st2 := Singleton(st, "has", Func(fn)).state;
    assert Make(st2, "has", params).state.instanceProps["has"] == Invoked(fn, params);
  }

  /** With the intended write, a shared result is cached: the next `make`
      returns it again, whatever parameters it is given, and changes
      nothing. */
  lemma MakeCachingReturnsCached(st: State, x: string, p1: seq<Value>, p2: seq<Value>)
    requires GetAbstract(st, x) !in st.instances
    requires GetAbstract(st, x) in st.bindings
    requires Truthy(st.bindings[GetAbstract(st, x)].shared)
    requires MakeCaching(st, x, p1).result.Ok?
    ensures var st2 := MakeCaching(st, x, p1).state;
      MakeCaching(st2, x, p2) == Effect(st2, MakeCaching(st, x, p1).result)
  {
  }

  /** `flush` empties everything `bound` looks at, and flushing twice is the
      same as flushing once. */
  lemma FlushUnbindsAll(st: State, x: string)
    ensures !Bound(Flush(st).state, x)
    ensures Flush(Flush(st).state) == Flush(st)
  {
  }

  /** `forget` has an empty body: nothing observable changes. */
  lemma ForgetChangesNothing(st: State, a: string, x: string, params: seq<Value>)
    ensures Forget(st, a).result.Ok?
    ensures Bound(Forget(st, a).state, x) == Bound(st, x)
    ensures Make(Forget(st, a).state, x, params) == Make(st, x, params)
  {
  }

  /** A public call on the container. */
  datatype Call =
    | BindCall(a: string, concrete: Value, shared: Value)
    | BindInstanceCall(a: string, concrete: Value, shared: Value)
    | SingletonCall(a: string, concrete: Value)
    | SingletonInstanceCall(a: string, concrete: Value)
    | AliasCall(a: string, alias: string)
    | MakeCall(x: string, params: seq<Value>)
    | ForgetCall(a: string)
    | FlushCall

  function Apply(st: State, c: Call): State
  {
    match c
    case BindCall(a, concrete, shared) => Bind(st, a, concrete, shared).state
    case BindInstanceCall(a, concrete, shared) => BindInstance(st, a, concrete, shared).state
    case SingletonCall(a, concrete) => Singleton(st, a, concrete).state
    case SingletonInstanceCall(a, concrete) => SingletonInstance(st, a, concrete).state
    case AliasCall(a, alias) => Alias(st, a, alias).state
    case MakeCall(x, params) => Make(st, x, params).state
    case ForgetCall(a) => Forget(st, a).state
    case FlushCall => Flush(st).state
  }

  /** The state after a sequence of calls, the first applied first. */
  function Run(st: State, calls: seq<Call>): State
    decreases |calls|
  {
    if |calls| == 0 then st else Run(Apply(st, calls[0]), calls[1..])
  }

  /** What every reachable state satisfies: each binding is stored under its
      own abstract and holds an accepted concrete, and the instances Map has
      no entry (nothing in the container ever calls `instances.set`). */
  ghost predicate Invariant(st: State)
  {
    && st.instances == map[]
    && forall k :: k in st.bindings ==>
         st.bindings[k].abstractId == k && ConcreteAccepted(st.bindings[k].concrete)
  }

  lemma ApplyKeepsInvariant(st: State, c: Call)
    requires Invariant(st)
    ensures Invariant(Apply(st, c))
  {
  }

  lemma {:induction false} RunKeepsInvariant(st: State, calls: seq<Call>)
    requires Invariant(st)
    ensures Invariant(Run(st, calls))
    decreases |calls|
  {
    if |calls| > 0 {
      ApplyKeepsInvariant(st, calls[0]);
      RunKeepsInvariant(Apply(st, calls[0]), calls[1..]);
    }
  }

  /** Only a shared `make` of an intrusive abstract assigns an intrusive
      property; every other call keeps the Map's methods intact. */
  lemma ApplyKeepsMethodsIntact(st: State, c: Call)
    requires MethodsIntact(st)
    ensures !(c.MakeCall? && Intrusive(GetAbstract(st, c.x))) ==> MethodsIntact(Apply(st, c))
  {
  }

  /** In every state the public calls can reach, `make` never answers from
      the shared-instance cache: it looks the binding up and builds it, on
      every call, shared or not (a shared binding under `size` throws at the
      write instead). This is stated for states whose Map methods are still
      the built-in ones. */
  lemma {:induction false} ReachableMakeAlwaysBuilds(calls: seq<Call>, x: string, params: seq<Value>)
    ensures var st := Run(Empty, calls);
      && st.instances == map[]
      && (MethodsIntact(st) && GetAbstract(st, x) in st.bindings ==>
            Make(st, x, params).result
            == if Truthy(st.bindings[GetAbstract(st, x)].shared) && GetAbstract(st, x) == SizeKey
               then Err(EngineTypeError)
               else Build(st.bindings[GetAbstract(st, x)], params))
      && (MethodsIntact(st) && GetAbstract(st, x) !in st.bindings ==>
            Make(st, x, params).result == Err(NoBindingError(GetAbstract(st, x))))
  {
    RunKeepsInvariant(Empty, calls);
  }
}

=== FILE: js.dfy ===
/**
 * The small part of JavaScript's value semantics that the container, the
 * binding record and the reflection helper observe: `typeof`, truthiness,
 * default parameters, and the exceptions they raise.
 */
module Js {

  /** A JavaScript value. Functions (callbacks and classes alike) and
      non-null objects are opaque references named by a token; nothing in the
      modelled code looks inside them. Numbers are represented by an integer:
      NaN and fractions are not distinguished. */
  datatype Value =
    | Undefined
    | Null
    | Bool(b: bool)
    | Num(n: int)
    | BigInt(big: int)
    | Str(s: string)
    | Sym(symbol: nat)
    | Func(fn: nat)
    | Obj(obj: nat)

  /** The eight strings `typeof` can produce. */
  const TypeNames: set<string> :=
    {"undefined", "object", "boolean", "number", "bigint", "string", "symbol", "function"}

  /** `typeof v`. The result is itself a JavaScript value (always a string),
      so that a comparison such as `typeof v === null` can be written down. */
  function TypeOf(v: Value): (r: Value)
    ensures r.Str? && r.s in TypeNames
    ensures r == Str("function") <==> v.Func?
    ensures r == Str("object") <==> v.Null? || v.Obj?
  {
    match v
    case Undefined => Str("undefined")
    case Null => Str("object")
    case Bool(_) => Str("boolean")
    case Num(_) => Str("number")
    case BigInt(_) => Str("bigint")
    case Str(_) => Str("string")
    case Sym(_) => Str("symbol")
    case Func(_) => Str("function")
    case Obj(_) => Str("object")
  }

  /** What `if (v)` decides. */
  predicate Truthy(v: Value)
  {
    match v
    case Undefined => false
    case Null => false
    case Bool(b) => b
    case Num(n) => n != 0
    case BigInt(n) => n != 0
    case Str(s) => s != ""
    case Sym(_) => true
    case Func(_) => true
    case Obj(_) => true
  }

  /** A default parameter `x = d`: it replaces an omitted or `undefined`
      argument, and nothing else. */
  function Default(v: Value, d: Value): (r: Value)
    ensures v.Undefined? ==> r == d
    ensures !v.Undefined? ==> r == v
  {
    if v.Undefined? then d else v
  }

  /** Exceptions. `BindingException` (a subclass of `IoCError`) is the only
      one the container throws itself; `TypeError` is thrown by the reflection
      helper with a message of its own; `EngineTypeError` is what the
      JavaScript engine throws when code calls or instantiates something that
      is not a function, or calls a missing method; its text is engine
      specific and not modelled. */
  datatype Error =
    | BindingException(message: string)
    | TypeError(message: string)
    | EngineTypeError

  datatype Option<+T> = None | Some(value: T)

  /** What a call returned, or the exception it threw. */
  datatype Result<+T> = Ok(value: T) | Err(error: Error)

  /** A call on a stateful receiver: the receiver's state once the call has
      completed (normally or by throwing), and its result. */
  datatype Effect<+S, +T> = Effect(state: S, result: Result<T>)
}

=== FILE: reflection.dfy ===
/**
 * Parameter-name extraction of src/Utilities/Reflection.js
 * (`argumentNames` and `_getRawArgs`). A function's source text is not
 * something the model can compute, so it is an input: `source` stands for
 * `func.prototype.constructor.toString()`.
 */
module Reflection {
  import opened Js
  import opened Strings

  /** The first index of `c` in `s` at or after `from`. */
  function IndexOf(s: string, c: char, from: nat): (r: Option<nat>)
    ensures r.Some? ==> from <= r.value < |s| && s[r.value] == c
    ensures r.Some? ==> forall k :: from <= k < r.value ==> s[k] != c
    ensures r.None? ==> forall k :: from <= k < |s| ==> s[k] != c
    decreases |s| - from
  {
    if from >= |s| then None
    else if s[from] == c then Some(from)
    else IndexOf(s, c, from + 1)
  }

  predicate KeywordAt(s: string, keyword: string, i: nat)
  {
    i + |keyword| <= |s| && s[i..i + |keyword|] == keyword
  }

  /** The pattern `keyword[^(]*\(([^)]*)\)` matches at `i`, with its `(`
      at `p` and its `)` at `q`; the captured group is `s[p + 1..q]`. */
  ghost predicate PatternAt(s: string, keyword: string, i: nat, p: nat, q: nat)
  {
    && KeywordAt(s, keyword, i)
    && i + |keyword| <= p < q < |s|
    && s[p] == '(' && s[q] == ')'
    && (forall k :: i + |keyword| <= k < p ==> s[k] != '(')
    && (forall k :: p < k < q ==> s[k] != ')')
  }

  /** The match of the pattern at `i`, as the positions of its parentheses:
      `[^(]*` can only stop at the first `(` and `[^)]*` at the first `)`,
      so at most one match starts at `i`. */
  function MatchAt(s: string, keyword: string, i: nat): (r: Option<(nat, nat)>)
    ensures r.Some? ==> PatternAt(s, keyword, i, r.value.0, r.value.1)
    ensures r.Some? ==> forall p: nat, q: nat :: PatternAt(s, keyword, i, p, q) ==> (p, q) == r.value
    ensures r.None? ==> forall p: nat, q: nat :: !PatternAt(s, keyword, i, p, q)
  {
    if !KeywordAt(s, keyword, i) then None
    else
      match IndexOf(s, '(', i + |keyword|)
      case None => None
      case Some(p) =>
        match IndexOf(s, ')', p + 1)
        case None => None
        case Some(q) => Some((p, q))
  }

  /** `s.match(/keyword[^(]*\(([^)]*)\)/)`: the leftmost match at or after
      `from`, as its captured group, or `null`. */
  function Search(s: string, keyword: string, from: nat): (r: Option<string>)
    ensures r.Some? ==> exists i: nat, p: nat, q: nat ::
      && from <= i && PatternAt(s, keyword, i, p, q)
      && (forall i': nat, p': nat, q': nat :: from <= i' < i ==> !PatternAt(s, keyword, i', p', q'))
      && r.value == s[p + 1..q]
    ensures r.None? ==> forall i: nat, p: nat, q: nat :: from <= i ==> !PatternAt(s, keyword, i, p, q)
    decreases |s| - from
  {
    if from >= |s| then None
    else
      match MatchAt(s, keyword, from)
      case Some((p, q)) => Some(s[p + 1..q])
      case None => Search(s, keyword, from + 1)
  }

  /** Some match of the pattern for `keyword` exists in `s`. */
  ghost predicate Matches(s: string, keyword: string)
  {
    exists i: nat, p: nat, q: nat :: PatternAt(s, keyword, i, p, q)
  }

  /** The search returns the captured group of the leftmost match. */
  lemma SearchFindsLeftmost(s: string, keyword: string, i: nat, p: nat, q: nat)
    requires PatternAt(s, keyword, i, p, q)
    requires forall i': nat, p': nat, q': nat :: i' < i ==> !PatternAt(s, keyword, i', p', q')
    ensures Search(s, keyword, 0) == Some(s[p + 1..q])
  {
    SearchFrom(s, keyword, 0, i, p, q);
  }

  /** From any start at or before the leftmost match, the search skips the
      positions where nothing matches and stops at that match. */
  lemma {:induction false} SearchFrom(s: string, keyword: string, from: nat, i: nat, p: nat, q: nat)
    requires from <= i && PatternAt(s, keyword, i, p, q)
    requires forall i': nat, p': nat, q': nat :: from <= i' < i ==> !PatternAt(s, keyword, i', p', q')
    ensures Search(s, keyword, from) == Some(s[p + 1..q])
    decreases i - from
  {
    var m := MatchAt(s, keyword, from);
    if from == i {
      assert m == Some((p, q));
    } else {
      assert m.None?;
      SearchFrom(s, keyword, from + 1, i, p, q);
    }
  }

  /** A keyword with a letter the text does not contain cannot match. */
  lemma MissingLetterRulesOut(s: string, keyword: string, c: char)
    requires c in keyword && c !in s
    ensures !Matches(s, keyword)
  {
  }

  /** `_getRawArgs(func)`: the parameter text after `function`, or failing
      that after `constructor`; `None` stands for the `[]` returned when
      neither pattern matches. The text never contains `)`. */
  function RawArgs(source: string): (r: Option<string>)
    ensures r.None? <==> !Matches(source, "function") && !Matches(source, "constructor")
    ensures r.Some? ==> ')' !in r.value
    ensures Matches(source, "function") ==> r == Search(source, "function", 0)
    ensures !Matches(source, "function") ==> r == Search(source, "constructor", 0)
  {
    match Search(source, "function", 0)
    case Some(args) => Some(args)
    case None => Search(source, "constructor", 0)
  }

  /** One segment cleaned the way `argumentNames` does it: cut at the first
      `=`, trim, remove the first inline comment, trim again. */
  function CleanArg(segment: string): (r: string)
    ensures Tight(r)
    ensures '=' !in r
  {
    var name := BeforeFirst(segment, '=');
    var t := Trim(name);
    var u := StripComment(t);
    var r := Trim(u);
    InfixKeepsAbsence(name, t, '=');
    StripKeepsAbsence(t, '=');
    InfixKeepsAbsence(u, r, '=');
    r
  }

  /** Cleaning only removes characters: one absent from the segment is
      absent from the name. */
  lemma CleanArgKeepsAbsence(segment: string, c: char)
    requires c !in segment
    ensures c !in CleanArg(segment)
  {
    var name := BeforeFirst(segment, '=');
    var t := Trim(name);
    var u := StripComment(t);
    InfixKeepsAbsence(segment, name, c);
    InfixKeepsAbsence(name, t, c);
    StripKeepsAbsence(t, c);
    InfixKeepsAbsence(u, Trim(u), c);
  }

  /** A segment without a default value or a comment is only trimmed. */
  lemma CleanArgOfPlainSegment(u: string, v: string)
    requires '=' !in u && '/' !in u
    ensures CleanArg(u) == Trim(u)
    ensures CleanArg(u + "=" + v) == Trim(u)
  {
    BeforeFirstCharacterised(u, v, '=');
    assert u + "=" + v == u + ['='] + v;
    var t := Trim(u);
    InfixKeepsAbsence(u, t, '/');
    StripCommentCharacterised(t, 0, 0);
    TrimOfTight(t);
  }

  /** A name with white space around it, and possibly a default value after
      it, is cleaned to the bare name. */
  lemma CleanArgOfName(lead: string, name: string, trail: string, default: string)
    requires forall k :: 0 <= k < |lead| ==> IsWhiteSpace(lead[k])
    requires forall k :: 0 <= k < |trail| ==> IsWhiteSpace(trail[k])
    requires Tight(name)
    requires '=' !in lead + name + trail && '/' !in lead + name + trail
    ensures CleanArg(lead + name + trail) == name
    ensures CleanArg(lead + name + trail + "=" + default) == name
  {
    var u := lead + name + trail;
    CleanArgOfPlainSegment(u, default);
    TrimAround(lead, name, trail);
  }

  /** A name preceded by an inline comment, possibly followed by a default
      value, is cleaned to the bare name. */
  lemma CleanArgOfCommentedName(body: string, lead: string, name: string, trail: string, default: string)
    requires forall k :: 0 <= k < |body| ==> !IsLineTerminator(body[k])
    requires forall k :: 0 <= k < |lead| ==> IsWhiteSpace(lead[k])
    requires forall k :: 0 <= k < |trail| ==> IsWhiteSpace(trail[k])
    requires Tight(name) && name != ""
    requires '=' !in body + lead + name + trail && '*' !in lead + name + trail
    ensures CleanArg("/*" + body + "*/" + lead + name + trail) == name
    ensures CleanArg("/*" + body + "*/" + lead + name + trail + "=" + default) == name
  {
    var u := "/*" + body + "*/" + lead + name + trail;
    assert '=' !in u by {
      assert forall k :: 0 <= k < |u| ==> u[k] in "/*" || u[k] in body + lead + name + trail || u[k] == '*';
    }
    CommentedNameCleans(body, lead, name, trail);
    BeforeFirstCharacterised(u, default, '=');
    assert u + "=" + default == u + ['='] + default;
  }

  lemma CommentedNameCleans(body: string, lead: string, name: string, trail: string)
    requires forall k :: 0 <= k < |body| ==> !IsLineTerminator(body[k])
    requires forall k :: 0 <= k < |lead| ==> IsWhiteSpace(lead[k])
    requires forall k :: 0 <= k < |trail| ==> IsWhiteSpace(trail[k])
    requires Tight(name) && name != ""
    requires '*' !in lead + name + trail
    ensures Trim(StripComment(Trim("/*" + body + "*/" + lead + name + trail))) == name
  {
    var core := "/*" + body + "*/" + lead + name;
    assert "/*" + body + "*/" + lead + name + trail == core + trail;
    TrimTrail(body, lead, name, trail);
    StripCore(body, lead, name);
    TrimLead(lead, name);
  }

  lemma TrimTrail(body: string, lead: string, name: string, trail: string)
    requires forall k :: 0 <= k < |trail| ==> IsWhiteSpace(trail[k])
    requires Tight(name) && name != ""
    ensures Trim("/*" + body + "*/" + lead + name + trail) == "/*" + body + "*/" + lead + name
  {
    var core := "/*" + body + "*/" + lead + name;
    CommentedCoreTight(body, lead, name);
    TrimAround("", core, trail);
    assert "" + core + trail == core + trail;
  }

  lemma StripCore(body: string, lead: string, name: string)
    requires forall k :: 0 <= k < |body| ==> !IsLineTerminator(body[k])
    requires '*' !in lead + name
    ensures StripComment("/*" + body + "*/" + lead + name) == lead + name
  {
    assert "/*" + body + "*/" + (lead + name) == "/*" + body + "*/" + lead + name;
    StripLeadingComment(body, lead + name);
  }

  lemma TrimLead(lead: string, name: string)
    requires forall k :: 0 <= k < |lead| ==> IsWhiteSpace(lead[k])
    requires Tight(name) && name != ""
    ensures Trim(lead + name) == name
  {
    TrimAround(lead, name, "");
    assert lead + name + "" == lead + name;
  }

  lemma CommentedCoreTight(body: string, lead: string, name: string)
    requires Tight(name) && name != ""
    ensures Tight("/*" + body + "*/" + lead + name)
  {
    var core := "/*" + body + "*/" + lead + name;
    assert core[0] == '/';
    assert core[|core| - 1] == name[|name| - 1];
  }

  /** Trimming a string without surrounding white space changes nothing. */
  lemma TrimOfTight(t: string)
    requires Tight(t)
    ensures Trim(t) == t
  {
    assert t == t[0..|t|];
    TrimAt(t, 0, |t|);
  }

  lemma InfixKeepsAbsence(s: string, r: string, c: char)
    requires IsTrimmedInfix(r, s) || r <= s
    requires c !in s
    ensures c !in r
  {
    if IsTrimmedInfix(r, s) {
      var i, j :| 0 <= i <= j <= |s| && r == s[i..j]
        && (forall k :: 0 <= k < i ==> IsWhiteSpace(s[k]))
        && (forall k :: j <= k < |s| ==> IsWhiteSpace(s[k]));
      assert forall k :: 0 <= k < |r| ==> r[k] == s[i + k];
    }
  }

  lemma StripKeepsAbsence(s: string, c: char)
    requires c !in s
    ensures c !in StripComment(s)
  {
    var r := StripComment(s);
    if r != s {
      var i: nat, j: nat :| FirstGreedyComment(s, i, j) && r == s[..i] + s[j + 2..];
      assert forall k :: 0 <= k < |r| ==> r[k] in s[..i] || r[k] in s[j + 2..];
    }
  }

  /** `.filter(arg => arg)`: the empty strings dropped, order kept. */
  function NonEmpty(xs: seq<string>): (r: seq<string>)
    ensures |r| <= |xs|
    ensures forall k :: 0 <= k < |r| ==> r[k] != ""
    ensures forall x :: x in r <==> x in xs && x != ""
  {
    if |xs| == 0 then []
    else if xs[0] == "" then NonEmpty(xs[1..])
    else [xs[0]] + NonEmpty(xs[1..])
  }

  /** Filtering commutes with concatenation, so it keeps the relative order
      of the names it keeps. */
  lemma {:induction false} NonEmptyKeepsOrder(xs: seq<string>, ys: seq<string>)
    ensures NonEmpty(xs + ys) == NonEmpty(xs) + NonEmpty(ys)
    decreases |xs|
  {
    if |xs| == 0 {
      assert xs + ys == ys;
    } else {
      assert (xs + ys)[1..] == xs[1..] + ys;
      NonEmptyKeepsOrder(xs[1..], ys);
    }
  }

  /** `.map(clean)`. */
  function CleanAll(segments: seq<string>): (r: seq<string>)
    ensures |r| == |segments|
    ensures forall k :: 0 <= k < |r| ==> r[k] == CleanArg(segments[k])
  {
    if |segments| == 0 then [] else [CleanArg(segments[0])] + CleanAll(segments[1..])
  }

  /** A name `argumentNames` can return: non-empty, no surrounding white
      space, and none of the characters that delimit it in the source. */
  predicate WellFormedName(n: string)
  {
    n != "" && Tight(n) && ',' !in n && '=' !in n && ')' !in n
  }

  /** The names in a raw parameter text: split on `,`, clean each segment,
      drop the empty ones. */
  function NamesOf(args: string): (r: seq<string>)
    requires ')' !in args
    ensures |r| <= Count(args, ',') + 1
    ensures forall k :: 0 <= k < |r| ==> WellFormedName(r[k])
  {
    var segments := Split(args, ',');
    var cleaned := CleanAll(segments);
    CleanedSegmentsWellFormed(args, segments, cleaned);
    var names := NonEmpty(cleaned);
    NonEmptyWellFormed(cleaned, names);
    names
  }

  lemma CleanedSegmentsWellFormed(args: string, segments: seq<string>, cleaned: seq<string>)
    requires ')' !in args && segments == Split(args, ',') && cleaned == CleanAll(segments)
    ensures forall k :: 0 <= k < |cleaned| ==> cleaned[k] == "" || WellFormedName(cleaned[k])
  {
    PiecesKeepAbsence(segments, ',', ')');
    forall k | 0 <= k < |cleaned|
      ensures cleaned[k] == "" || WellFormedName(cleaned[k])
    {
      assert cleaned[k] == CleanArg(segments[k]);
      CleanArgKeepsAbsence(segments[k], ',');
      CleanArgKeepsAbsence(segments[k], ')');
    }
  }

  lemma NonEmptyWellFormed(cleaned: seq<string>, names: seq<string>)
    requires forall k :: 0 <= k < |cleaned| ==> cleaned[k] == "" || WellFormedName(cleaned[k])
    requires names == NonEmpty(cleaned)
    ensures forall k :: 0 <= k < |names| ==> WellFormedName(names[k])
  {
    assert forall k :: 0 <= k < |names| ==> names[k] in cleaned;
  }

  lemma {:induction false} PiecesKeepAbsence(pieces: seq<string>, sep: char, c: char)
    requires c !in Join(pieces, sep)
    ensures forall k :: 0 <= k < |pieces| ==> c !in pieces[k]
    decreases |pieces|
  {
    if |pieces| > 1 {
      var rest := Join(pieces[1..], sep);
      assert Join(pieces, sep) == pieces[0] + [sep] + rest;
      assert forall m :: 0 <= m < |pieces[0]| ==> pieces[0][m] == Join(pieces, sep)[m];
      assert forall m :: 0 <= m < |rest| ==> rest[m] == Join(pieces, sep)[|pieces[0]| + 1 + m];
      PiecesKeepAbsence(pieces[1..], sep, c);
      assert forall k :: 1 <= k < |pieces| ==> pieces[k] == pieces[1..][k - 1];
    }
  }

  /** A segment that cleans to a non-empty name contributes that name. */
  lemma NameKept(args: string, k: nat)
    requires ')' !in args && k < |Split(args, ',')|
    requires CleanArg(Split(args, ',')[k]) != ""
    ensures CleanArg(Split(args, ',')[k]) in NamesOf(args)
  {
    NamesOfUnfolds(args);
    var cleaned := CleanAll(Split(args, ','));
    assert cleaned[k] == CleanArg(Split(args, ',')[k]);
    assert cleaned[k] in cleaned;
  }

  /** The names are exactly the non-empty cleaned segments. */
  lemma NamesOfCharacterised(args: string, x: string)
    requires ')' !in args
    ensures x in NamesOf(args) <==>
      x != "" && exists k :: 0 <= k < |Split(args, ',')| && CleanArg(Split(args, ',')[k]) == x
  {
    NamesOfUnfolds(args);
    InCleanAll(Split(args, ','), x);
  }

  lemma InCleanAll(segments: seq<string>, x: string)
    ensures x in CleanAll(segments) <==> exists k :: 0 <= k < |segments| && CleanArg(segments[k]) == x
  {
    var cleaned := CleanAll(segments);
    if x in cleaned {
      var k :| 0 <= k < |cleaned| && cleaned[k] == x;
      assert CleanArg(segments[k]) == x;
    }
    if exists k :: 0 <= k < |segments| && CleanArg(segments[k]) == x {
      var k :| 0 <= k < |segments| && CleanArg(segments[k]) == x;
      assert cleaned[k] == x;
    }
  }

  lemma NamesOfUnfolds(args: string)
    requires ')' !in args
    ensures NamesOf(args) == NonEmpty(CleanAll(Split(args, ',')))
  {
  }

  /** Filtering a list without empty strings keeps all of it. */
  lemma {:induction false} NonEmptyKeepsNonEmpty(xs: seq<string>)
    requires forall k :: 0 <= k < |xs| ==> xs[k] != ""
    ensures NonEmpty(xs) == xs
    decreases |xs|
  {
    if |xs| > 0 {
      NonEmptyKeepsNonEmpty(xs[1..]);
      assert xs == [xs[0]] + xs[1..];
    }
  }

  /** `Reflection.argumentNames(func)`. */
  function ArgumentNames(func: Value, source: string): (r: Result<seq<string>>)
    ensures !func.Func? ==> r == Err(TypeError("Cannot get arguments from \"" + TypeOf(func).s + "\""))
    ensures func.Func? ==> (r.Err? <==> RawArgs(source).None?)
    ensures r.Err? && func.Func? ==> r.error == EngineTypeError
    ensures r.Ok? ==> r.value == NamesOf(RawArgs(source).value)
    ensures r.Ok? ==> |r.value| <= Count(RawArgs(source).value, ',') + 1
    ensures r.Ok? ==> forall k :: 0 <= k < |r.value| ==> WellFormedName(r.value[k])
  {
    var t := TypeOf(func);
    if t != Str("function") then Err(TypeError("Cannot get arguments from \"" + t.s + "\""))
    else
      match RawArgs(source)
      // `[].split` is not a function
      case None => Err(EngineTypeError)
      case Some(args) => Ok(NamesOf(args))
  }

  /** For a function whose source has a parameter list, a string is among
      the returned names exactly when it is the non-empty cleaned form of one
      comma-separated segment of the first matched list. */
  lemma ArgumentNamesCharacterised(func: Value, source: string, x: string)
    requires func.Func? && RawArgs(source).Some?
    ensures ArgumentNames(func, source).Ok?
    ensures var args := RawArgs(source).value;
      x in ArgumentNames(func, source).value <==>
      x != "" && exists k :: 0 <= k < |Split(args, ',')| && CleanArg(Split(args, ',')[k]) == x
  {
    NamesOfCharacterised(RawArgs(source).value, x);
  }
}

=== FILE: reflection_examples.dfy ===
/**
 * The parameter lists exercised by tests/unit/utilities/ReflectionTest.js,
 * worked through the model: plain names, default values, and an inline
 * comment, in a function and in a class constructor. A class source is the
 * class declaration of the test written on one line; each source is spelled
 * as the concatenation of its parts so the parts can be reasoned about.
 */
module ReflectionExamples {
  import opened Js
  import opened Strings
  import opened Reflection

  // ------------------------------------------------- where the text is cut

  /** In the source of a function expression the group after the leading
      `function` keyword is the parameter text. */
  lemma FunctionSourceRaw(name: string, args: string, body: string)
    requires '(' !in name && ')' !in args
    ensures RawArgs("function" + name + "(" + args + ")" + body) == Some(args)
  {
    var s := "function" + name + "(" + args + ")" + body;
    var p := 8 + |name|;
    var q := p + 1 + |args|;
    assert s[..8] == "function";
    assert forall k :: 8 <= k < p ==> s[k] == name[k - 8];
    assert forall k :: p < k < q ==> s[k] == args[k - p - 1];
    assert s[p + 1..q] == args;
    assert PatternAt(s, "function", 0, p, q);
    SearchFindsLeftmost(s, "function", 0, p, q);
  }

  /** No occurrence of `keyword` starts inside `head`, even one running on
      into a `keyword` that follows it. */
  predicate NoKeywordIn(head: string, keyword: string)
  {
    forall k :: 0 <= k < |head| ==> !KeywordAt(head + keyword, keyword, k)
  }

  /** In the source of a class without the word `function` the group after
      the first `constructor` is the parameter text of the constructor. */
  lemma ConstructorSourceRaw(head: string, args: string, body: string)
    requires !Matches(head + "constructor(" + args + ")" + body, "function")
    requires NoKeywordIn(head, "constructor")
    requires ')' !in args
    ensures RawArgs(head + "constructor(" + args + ")" + body) == Some(args)
  {
    var s := head + "constructor(" + args + ")" + body;
    var i := |head|;
    var p := i + 11;
    var q := p + 1 + |args|;
    var prefix := head + "constructor";
    assert s[..p] == prefix;
    assert s[i..p] == "constructor";
    assert forall k :: p < k < q ==> s[k] == args[k - p - 1];
    assert s[p + 1..q] == args;
    assert PatternAt(s, "constructor", i, p, q);
    forall i': nat, p': nat, q': nat | i' < i
      ensures !PatternAt(s, "constructor", i', p', q')
    {
      assert !KeywordAt(head + "constructor", "constructor", i');
      if i' + 11 <= |s| {
        assert s[i'..i' + 11] == prefix[i'..i' + 11];
      }
    }
    SearchFindsLeftmost(s, "constructor", i, p, q);
  }

  /** Three separator-free pieces joined by the separator split back into
      those three pieces. */
  lemma SplitThree(a: string, b: string, c: string, sep: char)
    requires sep !in a && sep !in b && sep !in c
    ensures Split(a + [sep] + b + [sep] + c, sep) == [a, b, c]
  {
    SplitOfSeparatorFree(c, sep);
    SplitAtFirstSeparator(b, c, sep);
    SplitAtFirstSeparator(a, b + [sep] + c, sep);
    assert a + [sep] + b + [sep] + c == a + [sep] + (b + [sep] + c);
  }

  // ------------------------------------------------------ the three lists

  /** What a name in these lists is: non-empty, no surrounding white space,
      and none of the characters the cleaning steps look for. */
  predicate PlainName(n: string)
  {
    n != "" && Tight(n) && ',' !in n && '=' !in n && '/' !in n && ')' !in n && '*' !in n
  }

  /** `s` can be one segment of a parameter text (it holds no `,` and no
      `)`) and cleans to the non-empty name `n`. */
  predicate CleansTo(s: string, n: string)
  {
    ',' !in s && ')' !in s && n != "" && CleanArg(s) == n
  }

  /** At most three names, among them `n1`, `n2` and `n3`: when the three
      differ, exactly those. */
  predicate HoldsNames(names: seq<string>, n1: string, n2: string, n3: string)
  {
    |names| <= 3 && n1 in names && n2 in names && n3 in names
  }

  /** Three segments joined by commas give the names they clean to. */
  lemma ThreeSegments(s1: string, s2: string, s3: string, n1: string, n2: string, n3: string)
    requires CleansTo(s1, n1) && CleansTo(s2, n2) && CleansTo(s3, n3)
    ensures ')' !in s1 + [','] + s2 + [','] + s3
    ensures HoldsNames(NamesOf(s1 + [','] + s2 + [','] + s3), n1, n2, n3)
  {
    var args := s1 + [','] + s2 + [','] + s3;
    assert ')' !in args by { JoinedAbsence(s1, s2, s3, ')'); }
    assert Split(args, ',') == [s1, s2, s3] by { SplitThree(s1, s2, s3, ','); }
    SegmentsNames(args, s1, s2, s3, n1, n2, n3);
  }

  lemma SegmentsNames(args: string, s1: string, s2: string, s3: string, n1: string, n2: string, n3: string)
    requires ')' !in args && Split(args, ',') == [s1, s2, s3]
    requires CleanArg(s1) == n1 && CleanArg(s2) == n2 && CleanArg(s3) == n3
    requires n1 != "" && n2 != "" && n3 != ""
    ensures HoldsNames(NamesOf(args), n1, n2, n3)
  {
    NameKept(args, 0);
    NameKept(args, 1);
    NameKept(args, 2);
  }

  /** A plain name with white space before it cleans to the name. */
  lemma SpacedName(lead: string, n: string)
    requires forall k :: 0 <= k < |lead| ==> IsWhiteSpace(lead[k])
    requires PlainName(n) && '=' !in lead && '/' !in lead && ',' !in lead && ')' !in lead
    ensures CleansTo(lead + n, n)
  {
    var u := lead + n;
    assert u + "" == u;
    assert '=' !in u && '/' !in u;
    CleanArgOfName(lead, n, "", "");
  }

  lemma FirstName(n: string)
    requires PlainName(n)
    ensures CleansTo(n, n)
  {
    SpacedName("", n);
    assert "" + n == n;
  }

  lemma NextName(n: string)
    requires PlainName(n)
    ensures CleansTo(" " + n, n)
  {
    assert IsWhiteSpace(' ');
    SpacedName(" ", n);
  }

  /** `a, b, c`: each name is returned. */
  lemma PlainListNames(n1: string, n2: string, n3: string)
    requires PlainName(n1) && PlainName(n2) && PlainName(n3)
    ensures ')' !in n1 + ", " + n2 + ", " + n3
    ensures HoldsNames(NamesOf(n1 + ", " + n2 + ", " + n3), n1, n2, n3)
  {
    FirstName(n1);
    NextName(n2);
    NextName(n3);
    ThreeSegments(n1, " " + n2, " " + n3, n1, n2, n3);
    PlainSpelling(n1, n2, n3);
  }

  /** One `name = value` segment, with white space before it, cleans to
      the name. */
  lemma DefaultSegmentCleans(lead: string, n: string, d: string)
    requires forall k :: 0 <= k < |lead| ==> IsWhiteSpace(lead[k])
    requires PlainName(n) && '=' !in lead && '/' !in lead
    ensures CleanArg(lead + n + " = " + d) == n
  {
    assert IsWhiteSpace(' ');
    var u := lead + n + " ";
    assert '=' !in u && '/' !in u;
    CleanArgOfName(lead, n, " ", " " + d);
    EqualsSpelling(lead + n, d);
  }

  /** A segment `name = value`, with white space before it, cleans to the
      name when its value holds no `,` and no `)`. */
  lemma DefaultSegment(lead: string, n: string, d: string)
    requires forall k :: 0 <= k < |lead| ==> IsWhiteSpace(lead[k])
    requires PlainName(n) && '=' !in lead && '/' !in lead && ',' !in lead && ')' !in lead
    requires ',' !in d && ')' !in d
    ensures CleansTo(lead + n + " = " + d, n)
  {
    DefaultSegmentCleans(lead, n, d);
    DefaultSegmentAbsence(lead, n, d, ',');
    DefaultSegmentAbsence(lead, n, d, ')');
  }

  lemma FirstDefaultSegment(n: string, d: string)
    requires PlainName(n) && ',' !in d && ')' !in d
    ensures CleansTo(n + " = " + d, n)
  {
    DefaultSegment("", n, d);
    EmptyLeadSpelling(n, d);
  }

  lemma NextDefaultSegment(n: string, d: string)
    requires PlainName(n) && ',' !in d && ')' !in d
    ensures CleansTo(" " + n + " = " + d, n)
  {
    assert IsWhiteSpace(' ');
    DefaultSegment(" ", n, d);
  }

  /** `a = x, b = y, c = z`: the default values are dropped, as long as
      they hold no `,` (a comma would start a new segment) and no `)` (the
      parameter text ends at the first one). */
  lemma DefaultListNames(n1: string, d1: string, n2: string, d2: string, n3: string, d3: string)
    requires PlainName(n1) && PlainName(n2) && PlainName(n3)
    requires ',' !in d1 && ',' !in d2 && ',' !in d3
    requires ')' !in d1 && ')' !in d2 && ')' !in d3
    ensures ')' !in n1 + " = " + d1 + ", " + n2 + " = " + d2 + ", " + n3 + " = " + d3
    ensures HoldsNames(NamesOf(n1 + " = " + d1 + ", " + n2 + " = " + d2 + ", " + n3 + " = " + d3), n1, n2, n3)
  {
    FirstDefaultSegment(n1, d1);
    NextDefaultSegment(n2, d2);
    NextDefaultSegment(n3, d3);
    ThreeSegments(n1 + " = " + d1, " " + n2 + " = " + d2, " " + n3 + " = " + d3, n1, n2, n3);
    DefaultSpelling(n1, d1, n2, d2, n3, d3);
  }

  /** A name after an inline comment on one line cleans to the name, as
      long as the comment holds no `=`, `,` or `)`. */
  lemma CommentedNameSegment(c: string, n: string)
    requires forall k :: 0 <= k < |c| ==> !IsLineTerminator(c[k])
    requires '=' !in c && ',' !in c && ')' !in c && PlainName(n)
    ensures CleansTo("/*" + c + "*/" + " " + n, n)
  {
    CommentedFirstName(c, n);
    CommentedNameAbsence(c, n, ',');
    CommentedNameAbsence(c, n, ')');
  }

  lemma CommentedFirstName(c: string, n: string)
    requires forall k :: 0 <= k < |c| ==> !IsLineTerminator(c[k])
    requires '=' !in c && PlainName(n)
    ensures CleanArg("/*" + c + "*/" + " " + n) == n
  {
    assert IsWhiteSpace(' ');
    var u := "/*" + c + "*/" + " " + n;
    assert u + "" == u;
    assert '=' !in c + " " + n + "" && '*' !in " " + n + "";
    CleanArgOfCommentedName(c, " ", n, "", "");
  }

  /** The list with defaults, the first default replaced by an inline
      comment before the first name: the comment is dropped too, as long as
      it stays on one line and holds no `,`, `=` or `)`. */
  lemma CommentListNames(c: string, n1: string, n2: string, d2: string, n3: string, d3: string)
    requires forall k :: 0 <= k < |c| ==> !IsLineTerminator(c[k])
    requires ',' !in c && '=' !in c && ')' !in c
    requires PlainName(n1) && PlainName(n2) && PlainName(n3)
    requires ',' !in d2 && ',' !in d3
    requires ')' !in d2 && ')' !in d3
    ensures ')' !in "/*" + c + "*/ " + n1 + ", " + n2 + " = " + d2 + ", " + n3 + " = " + d3
    ensures HoldsNames(NamesOf("/*" + c + "*/ " + n1 + ", " + n2 + " = " + d2 + ", " + n3 + " = " + d3), n1, n2, n3)
  {
    CommentedNameSegment(c, n1);
    NextDefaultSegment(n2, d2);
    NextDefaultSegment(n3, d3);
    ThreeSegments("/*" + c + "*/" + " " + n1, " " + n2 + " = " + d2, " " + n3 + " = " + d3, n1, n2, n3);
    CommentSpelling(c, n1, n2, d2, n3, d3);
  }

  // ------------------------------------------------------ whole extraction

  /** `argumentNames` of a function expression: the names of its parameter
      text. */
  lemma FunctionArgumentNames(fn: nat, name: string, args: string, body: string)
    requires '(' !in name && ')' !in args
    ensures ArgumentNames(Func(fn), "function" + name + "(" + args + ")" + body) == Ok(NamesOf(args))
  {
    FunctionSourceRaw(name, args, body);
  }

  /** `argumentNames` of a class without the word `function`: the names of
      its first constructor's parameter text. */
  lemma ClassArgumentNames(fn: nat, head: string, args: string, body: string)
    requires !Matches(head + "constructor(" + args + ")" + body, "function")
    requires NoKeywordIn(head, "constructor")
    requires ')' !in args
    ensures ArgumentNames(Func(fn), head + "constructor(" + args + ")" + body) == Ok(NamesOf(args))
  {
    ConstructorSourceRaw(head, args, body);
  }

  /** `class A { `, for a class name without the letters `c` and `i`,
      holds neither `constructor` nor `function`. */
  lemma ClassHead(className: string)
    requires 'c' !in className && 'i' !in className
    ensures 'i' !in "class " + className + " { " && 'i' !in "{} }"
    ensures NoKeywordIn("class " + className + " { ", "constructor")
  {
    var head := "class " + className + " { ";
    var s := head + "constructor";
    forall k | 0 <= k < |head|
      ensures !KeywordAt(s, "constructor", k)
    {
      assert s[k] == head[k];
      if k == 0 {
        assert s[1] == 'l';
      } else if k < 6 {
        assert s[k] == "class "[k];
      } else if k < 6 + |className| {
        assert s[k] == className[k - 6];
      } else {
        assert s[k] == " { "[k - 6 - |className|];
      }
      if k + 11 <= |s| {
        assert s[k..k + 11][0] == s[k] && s[k..k + 11][1] == s[k + 1];
      }
    }
  }

  /** The names, default values and comment the tests use meet the
      conditions the lemmas below put on them. */
  lemma TestNamesQualify()
    ensures PlainName("foo") && PlainName("bar") && PlainName("baz")
    ensures 'i' !in "foo" && 'i' !in "bar" && 'i' !in "baz"
  {
  }

  lemma TestValuesQualify()
    ensures ',' !in "'bar'" && ')' !in "'bar'" && 'i' !in "'bar'"
    ensures ',' !in "true" && ')' !in "true" && 'i' !in "true"
    ensures ',' !in "[]" && ')' !in "[]" && 'i' !in "[]"
    ensures ',' !in "false" && ')' !in "false" && 'i' !in "false"
    ensures 'c' !in "A" && 'i' !in "A"
  {
  }

  lemma CommentQualifies()
    ensures forall k :: 0 <= k < |"* @type {array} "| ==> !IsLineTerminator("* @type {array} "[k])
    ensures ',' !in "* @type {array} " && '=' !in "* @type {array} " && ')' !in "* @type {array} "
    ensures 'i' !in "* @type {array} "
  {
  }

  /** The parameter list of the first test, `function(foo, bar, baz){}`,
      for any name between `function` and `(` and any three plain names. */
  lemma PlainFunctionTest(fn: nat, name: string, n1: string, n2: string, n3: string)
    requires '(' !in name
    requires PlainName(n1) && PlainName(n2) && PlainName(n3)
    ensures var r := ArgumentNames(Func(fn), "function" + name + "(" + (n1 + ", " + n2 + ", " + n3) + ")" + "{}");
      r.Ok? && HoldsNames(r.value, n1, n2, n3)
  {
    PlainListNames(n1, n2, n3);
    FunctionArgumentNames(fn, name, n1 + ", " + n2 + ", " + n3, "{}");
  }

  /** The function of the default-values test,
      `function(foo = 'bar', bar = true, baz = []){}`. */
  lemma DefaultFunctionTest(fn: nat, name: string, n1: string, d1: string, n2: string, d2: string, n3: string, d3: string)
    requires '(' !in name
    requires PlainName(n1) && PlainName(n2) && PlainName(n3)
    requires ',' !in d1 && ',' !in d2 && ',' !in d3
    requires ')' !in d1 && ')' !in d2 && ')' !in d3
    ensures var r := ArgumentNames(Func(fn), "function" + name + "("
              + (n1 + " = " + d1 + ", " + n2 + " = " + d2 + ", " + n3 + " = " + d3) + ")" + "{}");
      r.Ok? && HoldsNames(r.value, n1, n2, n3)
  {
    DefaultListNames(n1, d1, n2, d2, n3, d3);
    FunctionArgumentNames(fn, name, n1 + " = " + d1 + ", " + n2 + " = " + d2 + ", " + n3 + " = " + d3, "{}");
  }

  /** A test class on one line: `class A { constructor(args){} }`. */
  lemma TestClassNames(fn: nat, className: string, args: string)
    requires 'c' !in className && 'i' !in className
    requires 'i' !in args && ')' !in args
    ensures ArgumentNames(Func(fn), "class " + className + " { " + "constructor(" + args + ")" + "{} }") == Ok(NamesOf(args))
  {
    var head := "class " + className + " { ";
    ClassHead(className);
    assert 'i' !in head + "constructor(" + args + ")" + "{} }";
    MissingLetterRulesOut(head + "constructor(" + args + ")" + "{} }", "function", 'i');
    ClassArgumentNames(fn, head, args, "{} }");
  }

  /** The class of the second test, `class A { constructor(foo, bar, baz){} }`
      written on one line, for any class name without `c` or `i` and any
      three names without `i`. */
  lemma PlainClassTest(fn: nat, className: string, n1: string, n2: string, n3: string)
    requires 'c' !in className && 'i' !in className
    requires PlainName(n1) && PlainName(n2) && PlainName(n3)
    requires 'i' !in n1 && 'i' !in n2 && 'i' !in n3
    ensures var r := ArgumentNames(Func(fn), "class " + className + " { " + "constructor(" + (n1 + ", " + n2 + ", " + n3) + ")" + "{} }");
      r.Ok? && HoldsNames(r.value, n1, n2, n3)
  {
    PlainListNames(n1, n2, n3);
    PlainListAbsence(n1, n2, n3, 'i');
    TestClassNames(fn, className, n1 + ", " + n2 + ", " + n3);
  }

  /** The class of the default-values test. */
  lemma DefaultClassTest(fn: nat, className: string, n1: string, d1: string, n2: string, d2: string, n3: string, d3: string)
    requires 'c' !in className && 'i' !in className
    requires PlainName(n1) && PlainName(n2) && PlainName(n3)
    requires ',' !in d1 && ',' !in d2 && ',' !in d3
    requires ')' !in d1 && ')' !in d2 && ')' !in d3
    requires 'i' !in n1 && 'i' !in n2 && 'i' !in n3
    requires 'i' !in d1 && 'i' !in d2 && 'i' !in d3
    ensures var r := ArgumentNames(Func(fn), "class " + className + " { " + "constructor("
              + (n1 + " = " + d1 + ", " + n2 + " = " + d2 + ", " + n3 + " = " + d3) + ")" + "{} }");
      r.Ok? && HoldsNames(r.value, n1, n2, n3)
  {
    var args := n1 + " = " + d1 + ", " + n2 + " = " + d2 + ", " + n3 + " = " + d3;
    DefaultListAbsence(n1, d1, n2, d2, n3, d3, 'i');
    DefaultListAbsence(n1, d1, n2, d2, n3, d3, ')');
    DefaultListNames(n1, d1, n2, d2, n3, d3);
    TestClassNames(fn, className, args);
  }

  /** The class of the inline-comment test, whose first parameter carries
      an inline comment (`@type {array}` in the test). */
  lemma CommentClassTest(fn: nat, className: string, c: string, n1: string, n2: string, d2: string, n3: string, d3: string)
    requires 'c' !in className && 'i' !in className
    requires forall k :: 0 <= k < |c| ==> !IsLineTerminator(c[k])
    requires ',' !in c && '=' !in c && ')' !in c
    requires PlainName(n1) && PlainName(n2) && PlainName(n3)
    requires ',' !in d2 && ',' !in d3
    requires ')' !in d2 && ')' !in d3
    requires 'i' !in c && 'i' !in n1 && 'i' !in n2 && 'i' !in n3
    requires 'i' !in d2 && 'i' !in d3
    ensures var r := ArgumentNames(Func(fn), "class " + className + " { " + "constructor("
              + ("/*" + c + "*/ " + n1 + ", " + n2 + " = " + d2 + ", " + n3 + " = " + d3) + ")" + "{} }");
      r.Ok? && HoldsNames(r.value, n1, n2, n3)
  {
    var args := "/*" + c + "*/ " + n1 + ", " + n2 + " = " + d2 + ", " + n3 + " = " + d3;
    CommentListAbsence(c, n1, n2, d2, n3, d3, 'i');
    CommentListAbsence(c, n1, n2, d2, n3, d3, ')');
    CommentListNames(c, n1, n2, d2, n3, d3);
    TestClassNames(fn, className, args);
  }

  // ------------------------------------------ spelling and absence steps

  // How each test source is spelled as a concatenation of its parts, and
  // which characters the parts leave out; the lemmas above use these steps.

  lemma JoinedAbsence(s1: string, s2: string, s3: string, x: char)
    requires x !in s1 && x !in s2 && x !in s3 && x != ','
    ensures x !in s1 + [','] + s2 + [','] + s3
  {
  }

  lemma PlainSpelling(n1: string, n2: string, n3: string)
    ensures n1 + ", " + n2 + ", " + n3 == n1 + [','] + (" " + n2) + [','] + (" " + n3)
  {
  }

  lemma EqualsSpelling(u: string, d: string)
    ensures u + " " + "=" + (" " + d) == u + " = " + d
  {
  }

  lemma DefaultSegmentAbsence(lead: string, n: string, d: string, c: char)
    requires c !in lead && c !in n && c != ' ' && c != '=' && c !in d
    ensures c !in lead + n + " = " + d
  {
  }

  lemma EmptyLeadSpelling(n: string, d: string)
    ensures "" + n + " = " + d == n + " = " + d
  {
  }

  lemma DefaultSpelling(n1: string, d1: string, n2: string, d2: string, n3: string, d3: string)
    ensures n1 + " = " + d1 + ", " + n2 + " = " + d2 + ", " + n3 + " = " + d3
         == (n1 + " = " + d1) + [','] + (" " + n2 + " = " + d2) + [','] + (" " + n3 + " = " + d3)
  {
  }

  lemma CommentedNameAbsence(c: string, n: string, x: char)
    requires x !in c && x !in n && x != '/' && x != '*' && x != ' '
    ensures x !in "/*" + c + "*/" + " " + n
  {
  }

  lemma CommentSpelling(c: string, n1: string, n2: string, d2: string, n3: string, d3: string)
    ensures "/*" + c + "*/ " + n1 + ", " + n2 + " = " + d2 + ", " + n3 + " = " + d3
         == ("/*" + c + "*/" + " " + n1) + [','] + (" " + n2 + " = " + d2) + [','] + (" " + n3 + " = " + d3)
  {
  }

  lemma PlainListAbsence(n1: string, n2: string, n3: string, x: char)
    requires x !in n1 && x !in n2 && x !in n3 && x != ',' && x != ' '
    ensures x !in n1 + ", " + n2 + ", " + n3
  {
    PlainSpelling(n1, n2, n3);
  }

  /** A character other than the list's own punctuation is in the list
      only where it is in a name or a value. */
  lemma DefaultListAbsence(n1: string, d1: string, n2: string, d2: string, n3: string, d3: string, x: char)
    requires x !in n1 && x !in n2 && x !in n3 && x !in d1 && x !in d2 && x !in d3
    requires x != ' ' && x != '=' && x != ','
    ensures x !in n1 + " = " + d1 + ", " + n2 + " = " + d2 + ", " + n3 + " = " + d3
  {
    DefaultSpelling(n1, d1, n2, d2, n3, d3);
    EmptyLeadSpelling(n1, d1);
    DefaultSegmentAbsence("", n1, d1, x);
    DefaultSegmentAbsence(" ", n2, d2, x);
    DefaultSegmentAbsence(" ", n3, d3, x);
  }

  lemma CommentListAbsence(c: string, n1: string, n2: string, d2: string, n3: string, d3: string, x: char)
    requires x !in c && x !in n1 && x !in n2 && x !in n3 && x !in d2 && x !in d3
    requires x != '/' && x != '*' && x != ' ' && x != '=' && x != ','
    ensures x !in "/*" + c + "*/ " + n1 + ", " + n2 + " = " + d2 + ", " + n3 + " = " + d3
  {
    CommentSpelling(c, n1, n2, d2, n3, d3);
    CommentedNameAbsence(c, n1, x);
    DefaultSegmentAbsence(" ", n2, d2, x);
    DefaultSegmentAbsence(" ", n3, d3, x);
  }
}

=== FILE: strings.dfy ===
/**
 * The JavaScript string operations `argumentNames` is built from:
 * `split` on a one-character separator, `trim`, and a replacement of the
 * first match of the comment pattern `/\*.*\*\/`.
 */
module Strings {
  import opened Js

  /** The line terminators of ECMAScript (what `.` in a pattern does not
      match). */
  predicate IsLineTerminator(c: char)
  {
    c == '\n' || c == '\r' || c == '\U{2028}' || c == '\U{2029}'
  }

  /** The characters `trim` removes: ECMAScript WhiteSpace (tab, vertical
      tab, form feed, space, no-break space, byte order mark and the Unicode
      space separators) and the line terminators. */
  predicate IsWhiteSpace(c: char)
  {
    || c == '\t' || c == '\U{000B}' || c == '\U{000C}' || c == ' '
    || c == '\U{00A0}' || c == '\U{FEFF}' || c == '\U{1680}'
    || ('\U{2000}' <= c <= '\U{200A}')
    || c == '\U{202F}' || c == '\U{205F}' || c == '\U{3000}'
    || IsLineTerminator(c)
  }

  // ---------------------------------------------------------------- split

  /** Number of occurrences of `c` in `s`. */
  function Count(s: string, c: char): nat
  {
    if |s| == 0 then 0 else (if s[0] == c then 1 else 0) + Count(s[1..], c)
  }

  /** The pieces joined back with the separator between them. */
  function Join(pieces: seq<string>, sep: char): string
  {
    if |pieces| == 0 then ""
    else if |pieces| == 1 then pieces[0]
    else pieces[0] + [sep] + Join(pieces[1..], sep)
  }

  /** `s.split(sep)` for a one-character separator: the maximal
      separator-free pieces between separators, empty ones included. */
  function Split(s: string, sep: char): (r: seq<string>)
    ensures |r| == Count(s, sep) + 1
    ensures forall k :: 0 <= k < |r| ==> sep !in r[k]
    ensures Join(r, sep) == s
  {
    if |s| == 0 then [""]
    else
      var rest := Split(s[1..], sep);
      if s[0] == sep then [""] + rest
      else [[s[0]] + rest[0]] + rest[1..]
  }

  lemma {:induction false} SplitOfSeparatorFree(s: string, sep: char)
    requires sep !in s
    ensures Split(s, sep) == [s]
  {
    if |s| > 0 {
      SplitOfSeparatorFree(s[1..], sep);
      assert [s[0]] + s[1..] == s;
    }
  }

  lemma {:induction false} SplitAtFirstSeparator(u: string, v: string, sep: char)
    requires sep !in u
    ensures Split(u + [sep] + v, sep) == [u] + Split(v, sep)
  {
    if |u| == 0 {
      assert u + [sep] + v == [sep] + v;
      assert ([sep] + v)[1..] == v;
    } else {
      SplitAtFirstSeparator(u[1..], v, sep);
      assert (u + [sep] + v)[1..] == u[1..] + [sep] + v;
      assert [u[0]] + u[1..] == u;
    }
  }

  /** `split` is the only way to cut a string into separator-free pieces
      that join back to it: any such list of pieces is `Split(s, sep)`. */
  lemma {:induction false} SplitUnique(pieces: seq<string>, sep: char)
    requires |pieces| >= 1
    requires forall k :: 0 <= k < |pieces| ==> sep !in pieces[k]
    ensures Split(Join(pieces, sep), sep) == pieces
    decreases |pieces|
  {
    if |pieces| == 1 {
      SplitOfSeparatorFree(pieces[0], sep);
    } else {
      SplitUnique(pieces[1..], sep);
      SplitAtFirstSeparator(pieces[0], Join(pieces[1..], sep), sep);
      assert [pieces[0]] + pieces[1..] == pieces;
    }
  }

  /** `s.split(sep)[0]`: the text before the first separator, or all of `s`. */
  function BeforeFirst(s: string, sep: char): (r: string)
    ensures sep !in r
    ensures r <= s
    ensures |r| < |s| ==> s[|r|] == sep
  {
    FirstPieceIsPrefix(s, sep);
    Split(s, sep)[0]
  }

  lemma {:induction false} FirstPieceIsPrefix(s: string, sep: char)
    ensures Split(s, sep)[0] <= s
    ensures |Split(s, sep)[0]| < |s| ==> s[|Split(s, sep)[0]|] == sep
  {
    if |s| > 0 {
      FirstPieceIsPrefix(s[1..], sep);
    }
  }

  /** The first piece is what precedes the first separator. */
  lemma BeforeFirstCharacterised(u: string, v: string, sep: char)
    requires sep !in u
    ensures BeforeFirst(u, sep) == u
    ensures BeforeFirst(u + [sep] + v, sep) == u
  {
    SplitOfSeparatorFree(u, sep);
    SplitAtFirstSeparator(u, v, sep);
  }

  // ----------------------------------------------------------------- trim

  /** Leading white space removed. */
  function TrimStart(s: string): (r: string)
    ensures |r| <= |s| && r == s[|s| - |r|..]
    ensures forall k :: 0 <= k < |s| - |r| ==> IsWhiteSpace(s[k])
    ensures |r| == 0 || !IsWhiteSpace(r[0])
  {
    if |s| > 0 && IsWhiteSpace(s[0]) then TrimStart(s[1..]) else s
  }

  /** Trailing white space removed. */
  function TrimEnd(s: string): (r: string)
    ensures |r| <= |s| && r == s[..|r|]
    ensures forall k :: |r| <= k < |s| ==> IsWhiteSpace(s[k])
    ensures |r| == 0 || !IsWhiteSpace(r[|r| - 1])
  {
    if |s| > 0 && IsWhiteSpace(s[|s| - 1]) then TrimEnd(s[..|s| - 1]) else s
  }

  /** `r` is `s` with some white space cut from each end. */
  ghost predicate IsTrimmedInfix(r: string, s: string)
  {
    exists i, j :: 0 <= i <= j <= |s| && r == s[i..j]
      && (forall k :: 0 <= k < i ==> IsWhiteSpace(s[k]))
      && (forall k :: j <= k < |s| ==> IsWhiteSpace(s[k]))
  }

  /** `r` neither starts nor ends with white space. */
  predicate Tight(r: string)
  {
    |r| == 0 || (!IsWhiteSpace(r[0]) && !IsWhiteSpace(r[|r| - 1]))
  }

  /** `s.trim()`. */
  function Trim(s: string): (r: string)
    ensures Tight(r)
    ensures IsTrimmedInfix(r, s)
  {
    var t := TrimStart(s);
    var r := TrimEnd(t);
    TrimWitness(s, t, r);
    r
  }

  lemma TrimWitness(s: string, t: string, r: string)
    requires t == TrimStart(s) && r == TrimEnd(t)
    ensures IsTrimmedInfix(r, s)
  {
    var i := |s| - |t|;
    var j := i + |r|;
    SliceOfSuffix(s, i, j);
    WhiteShift(s, i, j);
    TrimmedInfixAt(s, i, j);
  }

  lemma TrimmedInfixAt(s: string, i: nat, j: nat)
    requires i <= j <= |s|
    requires forall k :: 0 <= k < i ==> IsWhiteSpace(s[k])
    requires forall k :: j <= k < |s| ==> IsWhiteSpace(s[k])
    ensures IsTrimmedInfix(s[i..j], s)
  {
  }

  lemma WhiteShift(s: string, i: nat, j: nat)
    requires i <= j <= |s|
    requires forall k :: j - i <= k < |s[i..]| ==> IsWhiteSpace(s[i..][k])
    ensures forall k :: j <= k < |s| ==> IsWhiteSpace(s[k])
  {
    forall k | j <= k < |s|
      ensures IsWhiteSpace(s[k])
    {
      assert s[k] == s[i..][k - i];
    }
  }

  /** Only one tight infix can be obtained by cutting white space from the
      ends: `Trim` is fully determined by the two properties it promises. */
  lemma TrimUnique(r: string, s: string)
    requires Tight(r) && IsTrimmedInfix(r, s)
    ensures r == Trim(s)
  {
    var i, j :| 0 <= i <= j <= |s| && r == s[i..j]
      && (forall k :: 0 <= k < i ==> IsWhiteSpace(s[k]))
      && (forall k :: j <= k < |s| ==> IsWhiteSpace(s[k]));
    TrimAt(s, i, j);
  }

  /** `Trim` cuts exactly the white space around a tight infix. */
  lemma TrimAt(s: string, i: nat, j: nat)
    requires i <= j <= |s| && Tight(s[i..j])
    requires forall k :: 0 <= k < i ==> IsWhiteSpace(s[k])
    requires forall k :: j <= k < |s| ==> IsWhiteSpace(s[k])
    ensures Trim(s) == s[i..j]
  {
    if i == j {
      TrimStartAt(s, |s|);
    } else {
      TightEnds(s, i, j);
      TrimStartAt(s, i);
      WhiteAfter(s, i, j);
      TrimEndAt(s[i..], j - i);
      SliceOfSuffix(s, i, j);
    }
  }

  lemma TightEnds(s: string, i: nat, j: nat)
    requires i < j <= |s| && Tight(s[i..j])
    ensures !IsWhiteSpace(s[i]) && !IsWhiteSpace(s[j - 1])
  {
    assert s[i..j][0] == s[i] && s[i..j][j - i - 1] == s[j - 1];
  }

  lemma WhiteAfter(s: string, i: nat, j: nat)
    requires i <= j <= |s|
    requires forall k :: j <= k < |s| ==> IsWhiteSpace(s[k])
    ensures forall k :: j - i <= k < |s[i..]| ==> IsWhiteSpace(s[i..][k])
  {
    forall k | j - i <= k < |s[i..]|
      ensures IsWhiteSpace(s[i..][k])
    {
      assert s[i..][k] == s[k + i];
    }
  }

  lemma SliceOfSuffix(s: string, i: nat, j: nat)
    requires i <= j <= |s|
    ensures s[i..][..j - i] == s[i..j]
  {
  }

  /** `TrimStart` stops at the first character that is not white space. */
  lemma {:induction false} TrimStartAt(s: string, i: nat)
    requires i <= |s| && (i == |s| || !IsWhiteSpace(s[i]))
    requires forall k :: 0 <= k < i ==> IsWhiteSpace(s[k])
    ensures TrimStart(s) == s[i..]
    decreases i
  {
    if i > 0 {
      var s' := s[1..];
      forall k | 0 <= k < i - 1
        ensures IsWhiteSpace(s'[k])
      {
        assert s'[k] == s[k + 1];
      }
      assert i - 1 < |s'| ==> s'[i - 1] == s[i];
      TrimStartAt(s', i - 1);
      assert s'[i - 1..] == s[i..];
    }
  }

  /** `TrimEnd` stops after the last character that is not white space. */
  lemma TrimEndAt(t: string, m: nat)
    requires m <= |t| && (m == 0 || !IsWhiteSpace(t[m - 1]))
    requires forall k :: m <= k < |t| ==> IsWhiteSpace(t[k])
    ensures TrimEnd(t) == t[..m]
  {
    var r := TrimEnd(t);
    assert |r| > 0 ==> r[|r| - 1] == t[|r| - 1];
  }

  /** Trimming removes exactly the white space put around a tight string. */
  lemma TrimAround(lead: string, name: string, trail: string)
    requires forall k :: 0 <= k < |lead| ==> IsWhiteSpace(lead[k])
    requires forall k :: 0 <= k < |trail| ==> IsWhiteSpace(trail[k])
    requires Tight(name)
    ensures Trim(lead + name + trail) == name
  {
    var u := lead + name + trail;
    var i, j := |lead|, |lead| + |name|;
    assert u[i..j] == name;
    forall k | 0 <= k < i
      ensures IsWhiteSpace(u[k])
    {
      assert u[k] == lead[k];
    }
    forall k | j <= k < |u|
      ensures IsWhiteSpace(u[k])
    {
      assert u[k] == trail[k - j];
    }
    TrimAt(u, i, j);
  }

  // -------------------------------------------------------------- comment

  predicate OpensAt(s: string, i: nat)
  {
    i + 1 < |s| && s[i] == '/' && s[i + 1] == '*'
  }

  predicate ClosesAt(s: string, j: nat)
  {
    j + 1 < |s| && s[j] == '*' && s[j + 1] == '/'
  }

  /** `s[i..j + 2]` matches `/\*.*\*\/`: an opener, then characters other
      than line terminators, then a closer. */
  predicate CommentSpan(s: string, i: nat, j: nat)
  {
    && OpensAt(s, i) && i + 2 <= j && ClosesAt(s, j)
    && forall k :: i + 2 <= k < j ==> !IsLineTerminator(s[k])
  }

  /** The match a regular expression search picks: the leftmost start, and
      for it the longest span (`.*` is greedy). */
  ghost predicate FirstGreedyComment(s: string, i: nat, j: nat)
  {
    && CommentSpan(s, i, j)
    && (forall i': nat, j': nat :: i' < i ==> !CommentSpan(s, i', j'))
    && (forall j': nat :: j < j' ==> !CommentSpan(s, i, j'))
  }

  /** The largest `j' <= j` such that `s[i..j' + 2]` is a comment. */
  function LastClose(s: string, i: nat, j: int): (r: Option<nat>)
    ensures r.Some? ==> r.value <= j && CommentSpan(s, i, r.value)
    ensures r.Some? ==> forall j': nat :: r.value < j' <= j ==> !CommentSpan(s, i, j')
    ensures r.None? ==> forall j': nat :: j' <= j ==> !CommentSpan(s, i, j')
    decreases j
  {
    if j < i + 2 then None
    else if CommentSpan(s, i, j) then Some(j)
    else LastClose(s, i, j - 1)
  }

  /** The leftmost comment starting at or after `from`, with its greedy end. */
  function FindComment(s: string, from: nat): (r: Option<(nat, nat)>)
    ensures r.Some? ==> from <= r.value.0 && CommentSpan(s, r.value.0, r.value.1)
    ensures r.Some? ==> forall i': nat, j': nat :: from <= i' < r.value.0 ==> !CommentSpan(s, i', j')
    ensures r.Some? ==> forall j': nat :: r.value.1 < j' ==> !CommentSpan(s, r.value.0, j')
    ensures r.None? ==> forall i': nat, j': nat :: from <= i' ==> !CommentSpan(s, i', j')
    decreases |s| - from
  {
    if from >= |s| then None
    else
      match LastClose(s, from, |s| - 2)
      case Some(j) => Some((from, j))
      case None => FindComment(s, from + 1)
  }

  /** `s.replace(/\/\*.*\*\//, '')`: the first match, if any, is cut out. */
  function StripComment(s: string): (r: string)
    ensures (forall i: nat, j: nat :: !CommentSpan(s, i, j)) ==> r == s
    ensures forall i: nat, j: nat :: FirstGreedyComment(s, i, j) ==> r == s[..i] + s[j + 2..]
    ensures r != s ==> exists i: nat, j: nat :: FirstGreedyComment(s, i, j) && r == s[..i] + s[j + 2..]
    ensures |r| <= |s|
  {
    match FindComment(s, 0)
    case None => s
    case Some((i, j)) =>
      assert FirstGreedyComment(s, i, j);
      forall i': nat, j': nat | FirstGreedyComment(s, i', j')
        ensures i' == i && j' == j
      {
        FirstGreedyUnique(s, i, j, i', j');
      }
      s[..i] + s[j + 2..]
  }

  /** A string has at most one first greedy comment. */
  lemma FirstGreedyUnique(s: string, i: nat, j: nat, i': nat, j': nat)
    requires FirstGreedyComment(s, i, j) && FirstGreedyComment(s, i', j')
    ensures i == i' && j == j'
  {
  }

  /** `StripComment` changes a string exactly when it holds a comment, and
      then shortens it; a string without a slash is left unchanged. */
  lemma StripCommentCharacterised(s: string, i: nat, j: nat)
    ensures CommentSpan(s, i, j) ==> |StripComment(s)| < |s|
    ensures '/' !in s ==> StripComment(s) == s
  {
    if '/' !in s {
      forall i': nat, j': nat
        ensures !CommentSpan(s, i', j')
      {
        if i' < |s| { assert s[i'] in s; }
      }
    }
  }

  /** A comment at the very start is cut out whole when nothing after it
      could close a longer one. */
  lemma StripLeadingComment(body: string, rest: string)
    requires forall k :: 0 <= k < |body| ==> !IsLineTerminator(body[k])
    requires '*' !in rest
    ensures StripComment("/*" + body + "*/" + rest) == rest
  {
    var s := "/*" + body + "*/" + rest;
    var j := 2 + |body|;
    assert s[..2] == "/*" && s[2..j] == body && s[j..j + 2] == "*/" && s[j + 2..] == rest;
    assert CommentSpan(s, 0, j) by {
      forall k | 2 <= k < j
        ensures !IsLineTerminator(s[k])
      {
        assert s[k] == body[k - 2];
      }
    }
    forall j': nat | j < j'
      ensures !CommentSpan(s, 0, j')
    {
      if j' == j + 1 {
        assert s[j'] == '/';
      } else if j' < |s| {
        assert s[j'] == rest[j' - j - 2];
      }
    }
    assert FirstGreedyComment(s, 0, j);
    StripCommentCharacterised(s, 0, j);
  }
}
